=== FILE: README.md ===
# pulp-operator api reconciliation, in Dafny

This project models the api part of pulp-operator's repo-manager
controller (`controllers/repo_manager/api.go`). That code is one
reconciliation pass, `pulpApiController`, plus the pure builders it uses.

The pass works on a Pulp descriptor (the custom resource) and the objects in
the descriptor's namespace. It runs these steps in order:

- the file-storage claim, only for the storage-class backend: it is created,
  then checked against the expected spec and updated when it drifted;
- `ContainerTokenSecret` is defaulted when empty;
- six resources are created in a fixed order, returning at the first one
  that fails or asks for a requeue;
- the `AdminPasswordSecret` field of the descriptor is written;
- the api deployment is checked;
- `DBFieldsEncryptionSecret` is defaulted when empty;
- the api service is checked;
- the server secret (`settings.py`) is checked. When that check fails or
  asks for a requeue, the api and content pods are restarted.

Modules:

- `Kube` (`kube.dfy`): the descriptor, the cluster objects, and the
  cluster as a map from (kind, name) to object. It also defines the
  side effects a pass produces: creates attempted, status updates, events,
  updates, patches, field writes, drift checks and restarts.
  `Get` is what a read that reaches the cluster finds: the stored object, or
  the zero object of that kind when there is none.
- `Decimal` (`decimal.dfy`): `strconv.Itoa`, with a decimal parser as its
  partner.
- `ApiBuilders` (`builders.dfy`): the pure builders.
  - the admin-secret name;
  - the api labels, the service and the service spec;
  - the file-storage claim;
  - the three generated secrets;
  - the token-server URL;
  - `pulpServerSecret`.

  `settings.py` is modelled as an ordered list of sections: base, API_ROOT,
  cache, Azure, S3, SSO, TOKEN_SERVER and custom. A section either appends
  keyed lines or rewrites the text built so far; the SSO and
  custom-settings collaborators are the ones that rewrite. Assembling the
  sections gives the text the source builds by concatenation
  (`SettingsTextWithoutSso`).
- `ApiController` (`controller.dfy`): the pass.
  - The cluster calls whose bodies lie outside this file are uninterpreted
    functions held in an `Env`: createPulpResource, reconcileObject,
    Update, updateCRField, DeepDerivative and cases.Title. So are the
    collaborators of the builders, and whether a read (`r.Get`) fails.
  - `Read` is the source's `r.Get` with its error discarded: a failed read,
    like a read of an absent object, leaves the zero object.
  - The pass is specified as the function `Pass`, built from phase
    functions. Each phase returns its own outcome and effects.
  - `Pass` is stated for any builders (`Builders`): the file-storage
    claim's and the six resources'. `ApiPass` is `Pass` with the builders
    api.go wires in (`fileStoragePVC`, `pulpServerSecret`, and so on).
  - The class `Reconciler` holds the descriptor, the cluster and the
    effect trace as fields. Its methods carry the pass out step by step,
    including the loop over the six resources. `PulpApiController` is
    proved to end in exactly the state, result and trace that `ApiPass`
    gives.

Three facts of the code are kept as written and stated as lemmas:

- `pulpAdminPasswordSecret` always names its secret `<name>-admin-password`.
  The resource definition, however, uses the custom name when one of two or
  more characters is set (`BuiltObjectsNamedAsDefined`).
- `pulpServerSecret` returns an empty Secret, with no name, when the
  object-storage secret cannot be read. The pass still creates and checks
  it under the definition's name `<name>-server`
  (`ServerSecretNamedIffReadable`).
- The claim, the server secret, the admin-password secret and the api
  service builders set the descriptor as controller owner
  (`ctrl.SetControllerReference`). The db-fields-encryption and
  container-auth builders do not (`GeneratedSecretsNamesAndOwners`).
  Whether `createPulpResource` attaches an owner to those two is outside
  this model.

## Model

| member | source | states |
|---|---|---|
| Kube.Get | controllers/repo_manager/api.go:65-66 | a read that reaches the cluster yields the stored object of that kind and name, and the zero object of the kind when there is none |
| ApiController.Read | controllers/repo_manager/api.go:133 | r.Get with its error discarded, as at api.go lines 66, 133, 148, 156 and 163: a failed read, or a read of an absent object, leaves the zero object of the kind; otherwise the stored object |
| Decimal.IntToDecimal | controllers/repo_manager/api.go:304-308 | strconv.Itoa: a non-empty numeral, with a leading minus sign exactly for negative values and digits otherwise |
| Decimal.NatToDecimalRoundTrip | controllers/repo_manager/api.go:304-308 | the digits rendered for a natural number denote that number |
| Decimal.IntToDecimalRoundTrip | controllers/repo_manager/api.go:304-308 | parsing what Itoa renders gives back the integer |
| Decimal.IntToDecimalInjective | controllers/repo_manager/api.go:304-308 | two integers that render to the same text are equal |
| ApiBuilders.AdminSecretName | controllers/repo_manager/api.go:84-88 | the admin-secret name is the custom name or `<name>-admin-password`, and never shorter than two characters |
| ApiBuilders.AdminSecretNameChoice | controllers/repo_manager/api.go:84-88 | a custom admin-secret name longer than one character is used, anything shorter gives `<name>-admin-password`, and the chosen name is never shorter than two characters |
| ApiBuilders.LabelsForPulpApi | controllers/repo_manager/api.go:209-219 | seven labels, with component `api` and pulp_cr the descriptor's name |
| ApiBuilders.ApiLabelsIdentifyInstance | controllers/repo_manager/api.go:207-219 | descriptors with different names get different api labels |
| ApiBuilders.ServiceAPISpec | controllers/repo_manager/api.go:499-531 | a ClusterIP spec that publishes not-ready addresses, with the single TCP port api-24817 from 24817 to 24817 and a selector whose pulp_cr is the given name |
| ApiBuilders.ServiceAPIObject | controllers/repo_manager/api.go:479-497 | the Service `<name>-api-svc` in the given namespace, with no owner yet, whose labels equal its spec's selector |
| ApiBuilders.ServiceForAPI | controllers/repo_manager/api.go:470-477 | that Service with the descriptor as controller, in the descriptor's namespace, with serviceAPISpec's spec |
| ApiBuilders.ServiceSelectsApiPods | controllers/repo_manager/api.go:479-531 | the service's labels, its selector and labelsForPulpApi are the same map |
| ApiBuilders.ServiceForAPIShape | controllers/repo_manager/api.go:469-531 | the api service is `<name>-api-svc` in the descriptor's namespace, owned by the descriptor, of type ClusterIP, publishes not-ready addresses, and has the single TCP port api-24817 from 24817 to 24817 |
| ApiBuilders.FileStoragePVC | controllers/repo_manager/api.go:174-205 | a claim `<name>-file-storage` in the descriptor's namespace with the descriptor as controller |
| ApiBuilders.FileStoragePVCShape | controllers/repo_manager/api.go:173-205 | the claim is `<name>-file-storage`, owned by the descriptor, and requests the configured size, the single access mode and the storage class; its labels never equal the api selector |
| ApiBuilders.GeneratedSecretsNamesAndOwners | controllers/repo_manager/api.go:422-467 | the admin-password secret is named as the definition iff no custom name of two or more characters is set (or the custom name equals the default); the container-auth secret is named by ContainerTokenSecret; only the admin-password secret has the descriptor as controller |
| ApiBuilders.TokenServer | controllers/repo_manager/api.go:387-402 | whatever the ingress type, the token server URL ends in `/token/` |
| ApiBuilders.RouteTokenServer | controllers/repo_manager/api.go:389-390 | behind a route the token server is the root URL followed by `/token/` |
| ApiBuilders.InternalTokenServerIsApiService | controllers/repo_manager/api.go:387-388 | with neither route nor ingress, the token server is the api service's in-cluster address at the service's port |
| ApiBuilders.IngressTokenServer | controllers/repo_manager/api.go:389-401 | under an ingress the token server uses https iff a TLS secret is set, and the host is Hostname when that is set, else IngressHost |
| ApiBuilders.DatabaseConnectionPrecedence | controllers/repo_manager/api.go:228-259 | a named external database secret overrides the postgres configuration secret entirely; without one, an unset configuration secret is `<name>-postgres-configuration`, and the host is `<name>-database-svc` whatever the secret holds |
| ApiBuilders.CacheConnectionPrecedence | controllers/repo_manager/api.go:300-318 | a named external cache secret overrides the configured redis port |
| ApiBuilders.WrittenFieldsUnread | controllers/repo_manager/api.go:223-322 | the database and cache connections of settings.py and the api service do not depend on ContainerTokenSecret, AdminPasswordSecret or DBFieldsEncryptionSecret, the three fields the pass writes back |
| ApiBuilders.OperatorCacheConnection | controllers/repo_manager/api.go:299-309 | with the operator's redis, the host is `<name>-redis-svc.<namespace>`, the password and db are empty, and the port is "6379" when unset and otherwise parses back to the configured port |
| ApiBuilders.S3OptionalLines | controllers/repo_manager/api.go:359-379 | AWS_S3_ENDPOINT_URL and AWS_S3_REGION_NAME are each emitted iff their optional key is non-empty; the endpoint line comes first, then the region line, each carrying its value; the credentials are always emitted |
| ApiBuilders.ObjectStorageSections | controllers/repo_manager/api.go:331-380 | at most one object-storage section, Azure for the Azure backend and S3 for the S3 backend, none for the other backends; None when the required data cannot be read |
| ApiBuilders.ObjectStorageSectionsNone | controllers/repo_manager/api.go:331-357 | the object-storage block is missing exactly when the chosen backend's required secret data cannot be read |
| ApiBuilders.ObjectStorageSectionLines | controllers/repo_manager/api.go:331-380 | the object-storage section renders the data read from the chosen backend's secret: the Azure keys, or the required S3 keys with the optional endpoint and region |
| ApiBuilders.SettingsSectionsNone | controllers/repo_manager/api.go:331-357 | settings.py cannot be built exactly when the object-storage data cannot be read |
| ApiBuilders.ServerSecretHoldsSettings | controllers/repo_manager/api.go:404-417 | when the object-storage data can be read, the server secret's settings.py is the assembled settings text, the one the settings lemmas describe |
| ApiBuilders.PulpServerSecret | controllers/repo_manager/api.go:223-420 | always a Secret: the empty one when the object-storage data cannot be read, else `<name>-server` in the descriptor's namespace, owned by it, holding only settings.py |
| ApiBuilders.CacheSections | controllers/repo_manager/api.go:296-327 | one appending cache section iff the cache is enabled |
| ApiBuilders.SsoSections | controllers/repo_manager/api.go:382-385 | one rewriting SSO section iff an SSO secret is named |
| ApiBuilders.SettingsSectionsOrdered | controllers/repo_manager/api.go:264-405 | the sections of settings.py follow the fixed order base, API_ROOT, cache, Azure, S3, SSO, TOKEN_SERVER, custom, each at most once |
| ApiBuilders.SettingsSectionPresence | controllers/repo_manager/api.go:294-405 | base, API_ROOT, TOKEN_SERVER and custom are always present; cache iff enabled; Azure or S3 iff that backend is chosen; SSO iff an SSO secret is named |
| ApiBuilders.StorageClassExcludesObjectStorage | controllers/repo_manager/api.go:331-351 | under the storage-class backend settings.py has no Azure or S3 section |
| ApiBuilders.SettingsTextWithoutSso | controllers/repo_manager/api.go:264-405 | without SSO, settings.py is the custom-settings rewrite of base + API_ROOT + cache (if enabled) + object storage + TOKEN_SERVER |
| ApiBuilders.ServerSecretEmptyIffStorageUnreadable | controllers/repo_manager/api.go:331-419 | the server secret is the empty Secret iff the object-storage data cannot be read; otherwise it is `<name>-server`, owned by the descriptor, and holds only settings.py |
| ApiController.ConditionTypeSuffix | controllers/repo_manager/api.go:51 | the condition type is the titled deployment type followed by `-API-Ready` |
| ApiController.ApiResources | controllers/repo_manager/api.go:100-114 | six resources, none a claim, each under the pass's condition type |
| ApiController.ResourceOrder | controllers/repo_manager/api.go:100-114 | the definitions, in order: server secret, db-fields-encryption, admin password, container auth, api deployment, api service |
| ApiController.BuiltObjectsNamedAsDefined | controllers/repo_manager/api.go:101-114 | the db-fields-encryption, container-auth and service objects api.go builds carry their definition's name; the admin password's does so iff no custom name of two or more characters is set (or it equals the default) |
| ApiController.ServerSecretNamedIffReadable | controllers/repo_manager/api.go:101-102 | the server secret built for the first definition carries its name `<name>-server` iff the object-storage data can be read |
| ApiController.FirstStop | controllers/repo_manager/api.go:117-124 | the index of the first resource whose creation fails or requeues: all earlier ones went through |
| ApiController.Attempted | controllers/repo_manager/api.go:117-118 | one create attempt per resource, in list order |
| ApiController.FileStoragePhase | controllers/repo_manager/api.go:54-82 | the claim step never changes the descriptor; it stops iff it returns a requeue or an error; it changes the modelled cluster only by a successful update, which stores the expected claim under its name and requeues after one second |
| ApiController.ContainerTokenDefault | controllers/repo_manager/api.go:90-95 | ContainerTokenSecret becomes `<name>-container-auth` when empty; otherwise nothing changes |
| ApiController.DbFieldsDefault | controllers/repo_manager/api.go:139-144 | DBFieldsEncryptionSecret becomes `<name>-db-fields-encryption` when empty; otherwise nothing changes |
| ApiController.CreatePhase | controllers/repo_manager/api.go:116-124 | the create loop goes through iff no resource's creation fails or requeues, and it changes neither the descriptor nor the modelled cluster |
| ApiController.AdminFieldPhase | controllers/repo_manager/api.go:126-129 | the field write of `<name>-admin-password` stops the pass iff updateCRField fails, and returns exactly that error with an empty result; nothing else in the modelled descriptor or cluster changes |
| ApiController.DriftPhase | controllers/repo_manager/api.go:131-137 | a drift check stops the pass iff reconcileObject fails or requeues on the object it read, and then returns Result{Requeue: requeue} with reconcileObject's error |
| ApiController.ProvisionPhase | controllers/repo_manager/api.go:54-124 | the provisioning half stops iff it returns a requeue or an error, and keeps the descriptor's name |
| ApiController.ChecksPhase | controllers/repo_manager/api.go:126-170 | the checks stop iff they return a requeue or an error; they keep the descriptor's name and leave the modelled cluster as it was |
| ApiController.Pass | controllers/repo_manager/api.go:48-171 | the pass stops early iff it returns a requeue or an error, and keeps the descriptor's name and namespace |
| ApiController.DeploymentCheckOutcome | controllers/repo_manager/api.go:131-137 | when provisioning and the AdminPasswordSecret write go through and the api deployment's check stops, the pass returns that check's requeue and error, and the check is its last effect |
| ApiController.ServiceCheckOutcome | controllers/repo_manager/api.go:146-152 | when every earlier step goes through and the api service's check stops, the pass returns that check's requeue and error, and the check is its last effect |
| ApiController.FileStorageEffects | controllers/repo_manager/api.go:56-57 | the claim step attempts one create, of the claim, iff the storage-class backend is chosen, and restarts nothing |
| ApiController.CreateEffects | controllers/repo_manager/api.go:116-124 | the create loop attempts the definitions of the resources up to the first that stops, and restarts nothing |
| ApiController.ProvisionEffects | controllers/repo_manager/api.go:54-124 | the first half of the pass restarts nothing, and attempts the claim, then the resources up to the first that stops |
| ApiController.ChecksEffects | controllers/repo_manager/api.go:126-168 | the checks create nothing, and restart nothing before the server-secret check |
| ApiController.PassSplitsAtServerSecret | controllers/repo_manager/api.go:154-170 | the pass is everything before the server-secret check, then that check when nothing stopped earlier |
| ApiController.ChecksState | controllers/repo_manager/api.go:126-170 | the checks leave the modelled cluster as it was; of the modelled descriptor they change only DBFieldsEncryptionSecret, and only from empty to its default |
| ApiController.FileStorageGate | controllers/repo_manager/api.go:54-82 | the claim is attempted, first and only once, iff the storage-class backend is chosen (storageClassProvided); the pass changes the modelled cluster only by the claim update, which returns a one-second requeue |
| ApiController.PassStopsAtClaim | controllers/repo_manager/api.go:54-82 | a claim step that returns is the whole pass |
| ApiController.PassClusterIsClaims | controllers/repo_manager/api.go:48-171 | the pass leaves the modelled cluster as the claim step left it |
| ApiController.PassAttemptsAreProvisions | controllers/repo_manager/api.go:48-171 | the create attempts of the pass are those of its provisioning half |
| ApiController.FileStorageAttempts | controllers/repo_manager/api.go:54-124 | the claim is the first attempt iff the storage-class backend is chosen, and no later attempt is a claim |
| ApiController.FileStorageOutcomes | controllers/repo_manager/api.go:56-81 | the outcomes of the claim step, each with its full effect list: a failed create returns its error; a requeued create returns Requeue; a matching claim goes on; a drifted claim is updated, and success stores it and requeues after one second while failure sets ErrorUpdatingFileStoragePVC and a Failed event and returns the error with an empty result; a step that returns ends the pass |
| ApiController.RequeueAfterOnlyFromClaimUpdate | controllers/repo_manager/api.go:48-171 | a non-zero requeue delay comes only from a successful claim update |
| ApiController.CreateOrderAndShortCircuit | controllers/repo_manager/api.go:101-124 | past the claim step, the resources are attempted in list order up to and including the first that stops; no later one is attempted; that one's error, or Requeue, is what the pass returns, and its attempt is the last effect |
| ApiController.DefaultsNeverOverwrite | controllers/repo_manager/api.go:90-144 | of the modelled descriptor the pass changes only ContainerTokenSecret and DBFieldsEncryptionSecret, each only from empty to its default; a clean pass has applied both defaults |
| ApiController.RestartsOfRestart | controllers/repo_manager/api.go:159-165 | the restarts go to the api deployment, then the content deployment, each as read (the zero Deployment when its read fails or it is absent) |
| ApiController.RestartScope | controllers/repo_manager/api.go:154-168 | pods are restarted iff every earlier step went through and the server-secret check fails or requeues; then the api and content deployments as read from the cluster (zero when a read fails) are restarted, as the last two effects, and the pass returns that check's requeue and error |
| ApiController.NoRestartsBeforeServerSecret | controllers/repo_manager/api.go:48-152 | nothing is restarted before the server-secret check, and a pass that reaches it has left the modelled cluster unchanged |
| ApiController.ClaimCleanIff | controllers/repo_manager/api.go:56-82 | the claim step goes through iff the backend is not storage-class, or the claim is created without a requeue and already matches the claim as read (the zero claim when the read fails) |
| ApiController.ChecksCleanIff | controllers/repo_manager/api.go:126-170 | the checks go through iff the field write succeeds and the deployment, service and server-secret checks, each on the object as read (zero when the read fails), neither fail nor requeue |
| ApiController.ProvisionCleanIff | controllers/repo_manager/api.go:54-124 | the first half goes through iff the claim step and all six creations go through; it then leaves the modelled cluster as it was and the descriptor with ContainerTokenSecret defaulted |
| ApiController.CleanPassIff | controllers/repo_manager/api.go:48-171 | the pass returns an empty result and no error iff every step goes through, each as seen by the descriptor defaulted by then; such a pass leaves the modelled cluster unchanged |
| ApiController.Reconciler.CreatePulpResource | controllers/repo_manager/api.go:117-118 | a create attempt is recorded and its outcome comes from createPulpResource; the descriptor and the modelled cluster are unchanged |
| ApiController.Reconciler.ReconcileObject | controllers/repo_manager/api.go:131-137 | reads the object (the zero object when absent or when the read fails), records the drift check, and stops on an error or a requeue, as DriftPhase does |
| ApiController.Reconciler.Update | controllers/repo_manager/api.go:72 | an update attempt is recorded; a successful update stores the object under its kind and name |
| ApiController.Reconciler.ReconcileFileStorage | controllers/repo_manager/api.go:54-82 | the claim step, with the result, state and trace of FileStoragePhase |
| ApiController.Reconciler.DefaultContainerToken | controllers/repo_manager/api.go:90-95 | the ContainerTokenSecret default, as ContainerTokenDefault gives it |
| ApiController.Reconciler.DefaultDbFields | controllers/repo_manager/api.go:139-144 | the DBFieldsEncryptionSecret default, as DbFieldsDefault gives it |
| ApiController.Reconciler.CreateResources | controllers/repo_manager/api.go:116-124 | the loop over the six resources with early return, as CreatePhase gives it |
| ApiController.Reconciler.Provision | controllers/repo_manager/api.go:54-124 | the claim step, the container-token default and the create loop, in sequence |
| ApiController.Reconciler.CheckObjects | controllers/repo_manager/api.go:126-170 | the field write, the three drift checks with the db-fields default between them, and the restarts |
| ApiController.Reconciler.PulpApiController | controllers/repo_manager/api.go:48-171 | the whole pass: the result, the error, the descriptor, the cluster and the trace are those of ApiPass |

## Left out

- `controllers/backup/database.go`: it only runs shell commands inside a pod and reads a secret; it has no decision logic to model.
- createPulpResource, reconcileObject, r.Update, updateCRField and DeepDerivative are uninterpreted functions. Their own effects on the cluster are not modelled; only a successful `Update` stores the object.
- ApiController.FileStoragePhase, ApiController.CreatePhase, ApiController.ChecksPhase, ApiController.ChecksState, ApiController.FileStorageGate, ApiController.PassClusterIsClaims, ApiController.NoRestartsBeforeServerSecret, ApiController.ProvisionCleanIff, ApiController.CleanPassIff, ApiController.Reconciler.CreatePulpResource: "the cluster is unchanged" is about the modelled cluster. The objects createPulpResource creates and reconcileObject updates in the real cluster are not reflected in it, so these state less than they seem to.
- Whether `r.Get` fails is an uninterpreted function of the cluster, the kind and the name. Two reads of the same object in one pass therefore fail or succeed together; transient failures that differ between them are not modelled.
- ApiController.AdminFieldPhase, ApiController.ChecksState, ApiController.DefaultsNeverOverwrite: the descriptor after updateCRField is not modelled. The comment at api.go:126 says the call sets AdminPasswordSecret to `<name>-admin-password`; in the model the call only records its attempt and returns its error, so these members do not see that write, and "only ContainerTokenSecret and DBFieldsEncryptionSecret change" holds of the modelled descriptor only. For the same reason the api deployment, the service and the server secret of the checks are built from a descriptor without that write. ApiBuilders.WrittenFieldsUnread shows the service and the database and cache connections do not depend on the field; the deployment builder and the other settings collaborators take the whole descriptor and might.
- The errors of `r.Patch` are discarded, as in the source. A patch is recorded as an effect, and the descriptor keeps the new value.
- Status updates, events and restarts are recorded as effects. restartPods and updateStatus are not modelled further.
- These are uninterpreted functions: MultiStorageConfigured (only its first backend is used), retrieveSecretData, getRootURL, ssoConfig, addCustomPulpSettings, initDeployment (the api deployment builder) and cases.Title.
- Key and password generation (createFernetKey, createPwd, genTokenAuthKey) is replaced by given values.
- Logging is not modelled. resource.MustParse is not modelled either: the size stays the configured text.
- ctrl.SetControllerReference is modelled as always succeeding. Its result is the `controller` field of the object's metadata.
- Work-queue scheduling, concurrency between passes and the request context are not modelled.
- The `Deployment` pod template is an opaque text, because the deployment builder is outside this file.
- ApiBuilders.AdminSecretNameChoice: Go's `len` counts bytes, while the model counts characters. The two differ only for a one-character custom name outside ASCII, which the source would accept and the model does not.

=== FILE: builders.dfy ===
/** The pure builders of api.go: default names, the api service and its
    labels, the file-storage claim, the generated secrets and the
    settings.py payload of the server secret.

    settings.py is kept as an ordered list of sections, each either a list
    of lines (one per Python setting, keyed by the setting's name) or an
    opaque rewrite of the text built so far (the SSO and custom-settings
    collaborators). Rendering the sections in order yields exactly the text
    the source builds by concatenation. */
module ApiBuilders {
  import opened Kube
  import Decimal

  // ------------------------------------------------------------ collaborators

  /** The backend MultiStorageConfigured reports first (`storageType[0]`). */
  datatype StorageType = StorageClassName | S3Object | AzureObject | OtherStorage(tag: string)

  /** What retrieveSecretData returns: the key/value data read and an error
      when a required key set could not be read. */
  datatype SecretData = SecretData(data: map<string, string>, err: Option<Error>)

  /** Code outside this file that the builders call; each is an oracle. */
  datatype Collaborators = Collaborators(
    // controllers.MultiStorageConfigured(pulp, "Pulp")[0]
    storageType: Pulp -> StorageType,
    // retrieveSecretData(ctx, secretName, namespace, required, keys...)
    retrieveSecretData: (string, string, bool, seq<string>) -> SecretData,
    // getRootURL
    rootUrl: Pulp -> string,
    // ssoConfig, which edits the settings text in place
    ssoConfig: (Pulp, string) -> string,
    // addCustomPulpSettings
    customSettings: (Pulp, string) -> string,
    // controllers.DotNotEditMessage
    doNotEditMessage: string)

  /** Go's map index: the empty string for a missing key. */
  function Value(m: map<string, string>, key: string): string {
    if key in m then m[key] else ""
  }

  /** storageClassProvided: a PVC is wanted only for the storage-class backend. */
  predicate StorageClassProvided(h: Collaborators, p: Pulp) {
    h.storageType(p).StorageClassName?
  }

  // ----------------------------------------------------------- default names

  /** The admin-password secret the pass provisions. */
  function AdminSecretName(p: Pulp): (n: string)
    ensures |n| > 1
    ensures n == p.spec.adminPasswordSecret || n == p.name + "-admin-password"
  {
    if |p.spec.adminPasswordSecret| > 1 then p.spec.adminPasswordSecret else p.name + "-admin-password"
  }

  /** A custom name of two or more characters wins; anything shorter,
      including a one-character value, yields the default name. */
  lemma AdminSecretNameChoice(p: Pulp)
    ensures |p.spec.adminPasswordSecret| > 1 ==> AdminSecretName(p) == p.spec.adminPasswordSecret
    ensures |p.spec.adminPasswordSecret| <= 1 ==> AdminSecretName(p) == p.name + "-admin-password"
    ensures |AdminSecretName(p)| > 1
  {
  }

  // ------------------------------------------------------------------ labels

  /** labelsForPulpApi */
  function LabelsForPulpApi(p: Pulp): (l: Labels)
    ensures "pulp_cr" in l && l["pulp_cr"] == p.name
    ensures "app.kubernetes.io/component" in l && l["app.kubernetes.io/component"] == "api"
    ensures |l.Keys| == 7
  {
    map[
      "app.kubernetes.io/name" := p.spec.deploymentType + "-api",
      "app.kubernetes.io/instance" := p.spec.deploymentType + "-api-" + p.name,
      "app.kubernetes.io/component" := "api",
      "app.kubernetes.io/part-of" := p.spec.deploymentType,
      "app.kubernetes.io/managed-by" := p.spec.deploymentType + "-operator",
      "app" := "pulp-api",
      "pulp_cr" := p.name]
  }

  /** Two Pulp descriptors with different names never share api labels, so
      one instance's service never selects another instance's pods. */
  lemma ApiLabelsIdentifyInstance(p: Pulp, q: Pulp)
    requires p.name != q.name
    ensures LabelsForPulpApi(p) != LabelsForPulpApi(q)
  {
    assert LabelsForPulpApi(p)["pulp_cr"] != LabelsForPulpApi(q)["pulp_cr"];
  }

  // ----------------------------------------------------------------- service

  const ApiPort := 24817

  /** serviceAPISpec; the selector map is written out here as in the source. */
  function ServiceAPISpec(name: string, namespace: string, deploymentType: string): (spec: ServiceSpec)
    ensures spec.ports == [ServicePort("api-24817", ApiPort, "TCP", ApiPort)]
    ensures spec.serviceType == "ClusterIP" && spec.publishNotReadyAddresses
    ensures "pulp_cr" in spec.selector && spec.selector["pulp_cr"] == name
  {
    ServiceSpec(
      internalTrafficPolicy := "Cluster",
      ipFamilies := ["IPv4"],
      ipFamilyPolicy := "SingleStack",
      ports := [ServicePort("api-24817", ApiPort, "TCP", ApiPort)],
      selector := map[
        "app.kubernetes.io/name" := deploymentType + "-api",
        "app.kubernetes.io/instance" := deploymentType + "-api-" + name,
        "app.kubernetes.io/component" := "api",
        "app.kubernetes.io/part-of" := deploymentType,
        "app.kubernetes.io/managed-by" := deploymentType + "-operator",
        "app" := "pulp-api",
        "pulp_cr" := name],
      sessionAffinity := "None",
      serviceType := "ClusterIP",
      publishNotReadyAddresses := true)
  }

  /** serviceAPIObject; the label map is written out here as in the source. */
  function ServiceAPIObject(name: string, namespace: string, deploymentType: string): (svc: Obj)
    ensures svc.Service?
    ensures svc.meta.name == name + "-api-svc" && svc.meta.namespace == namespace
    ensures svc.meta.controller.None?
    ensures svc.meta.labels == svc.svcSpec.selector
  {
    Service(
      ObjectMeta(
        name + "-api-svc",
        namespace,
        map[
          "app.kubernetes.io/name" := deploymentType + "-api",
          "app.kubernetes.io/instance" := deploymentType + "-api-" + name,
          "app.kubernetes.io/component" := "api",
          "app.kubernetes.io/part-of" := deploymentType,
          "app.kubernetes.io/managed-by" := deploymentType + "-operator",
          "app" := "pulp-api",
          "pulp_cr" := name],
        None),
      ServiceAPISpec(name, namespace, deploymentType))
  }

  /** serviceForAPI: the api service with the Pulp descriptor as controller. */
  function ServiceForAPI(p: Pulp): (svc: Obj)
    ensures svc.Service?
    ensures svc.meta.controller == Some(p.name)
    ensures svc.meta.name == p.name + "-api-svc" && svc.meta.namespace == p.namespace
    ensures svc.svcSpec == ServiceAPISpec(p.name, p.namespace, p.spec.deploymentType)
  {
    var svc := ServiceAPIObject(p.name, p.namespace, p.spec.deploymentType);
    Service(svc.meta.(controller := Some(p.name)), svc.svcSpec)
  }

  /** The three label maps the source writes out separately agree: the api
      service carries the api labels and selects exactly the pods that carry
      them. */
  lemma ServiceSelectsApiPods(p: Pulp)
    ensures ServiceForAPI(p).meta.labels == LabelsForPulpApi(p)
    ensures ServiceForAPI(p).svcSpec.selector == LabelsForPulpApi(p)
    ensures ServiceForAPI(p).svcSpec.selector == ServiceForAPI(p).meta.labels
  {
  }

  /** The api service: named after the descriptor, owned by it, a ClusterIP
      service with one TCP port api-24817 forwarding 24817 to 24817. */
  lemma ServiceForAPIShape(p: Pulp)
    ensures ServiceForAPI(p).meta.name == p.name + "-api-svc"
    ensures ServiceForAPI(p).meta.namespace == p.namespace
    ensures ServiceForAPI(p).meta.controller == Some(p.name)
    ensures ServiceForAPI(p).svcSpec.ports == [ServicePort("api-24817", 24817, "TCP", 24817)]
    ensures ServiceForAPI(p).svcSpec.serviceType == "ClusterIP"
    ensures ServiceForAPI(p).svcSpec.publishNotReadyAddresses
  {
  }

  // ------------------------------------------------------ file-storage claim

  /** fileStoragePVC. The requested size is kept as the text the source
      hands to resource.MustParse. */
  function FileStoragePVC(p: Pulp): (pvc: Obj)
    ensures pvc.PersistentVolumeClaim?
    ensures pvc.meta.name == p.name + "-file-storage" && pvc.meta.namespace == p.namespace
    ensures pvc.meta.controller == Some(p.name)
  {
    PersistentVolumeClaim(
      ObjectMeta(
        p.name + "-file-storage",
        p.namespace,
        map[
          "app.kubernetes.io/name" := p.spec.deploymentType + "-storage",
          "app.kubernetes.io/instance" := p.spec.deploymentType + "-storage-" + p.name,
          "app.kubernetes.io/component" := "storage",
          "app.kubernetes.io/part-of" := p.spec.deploymentType,
          "app.kubernetes.io/managed-by" := p.spec.deploymentType + "-operator"],
        Some(p.name)),
      PvcSpec(p.spec.fileStorageSize, [p.spec.fileStorageAccessMode], p.spec.fileStorageClass))
  }

  /** The claim is owned by the descriptor, asks for the configured size,
      single access mode and storage class, and its labels never match the
      api service's selector. */
  lemma FileStoragePVCShape(p: Pulp, q: Pulp)
    ensures FileStoragePVC(p).meta.name == p.name + "-file-storage"
    ensures FileStoragePVC(p).meta.controller == Some(p.name)
    ensures FileStoragePVC(p).pvcSpec.storageRequest == p.spec.fileStorageSize
    ensures FileStoragePVC(p).pvcSpec.accessModes == [p.spec.fileStorageAccessMode]
    ensures FileStoragePVC(p).pvcSpec.storageClassName == p.spec.fileStorageClass
    ensures FileStoragePVC(p).meta.labels != ServiceForAPI(q).svcSpec.selector
  {
    assert FileStoragePVC(p).meta.labels["app.kubernetes.io/component"] == "storage";
    assert ServiceForAPI(q).svcSpec.selector["app.kubernetes.io/component"] == "api";
  }

  // ----------------------------------------------------- generated secrets

  /** pulpDBFieldsEncryptionSecret; the Fernet key is generated outside. */
  function DBFieldsEncryptionSecret(p: Pulp, fernetKey: string): (sec: Obj)
    ensures sec.Secret?
  {
    Secret(ObjectMeta(p.name + "-db-fields-encryption", p.namespace, map[], None),
           map["database_fields.symmetric.key" := fernetKey])
  }

  /** pulpAdminPasswordSecret; the 32-character password is generated outside. */
  function AdminPasswordSecret(p: Pulp, password: string): (sec: Obj)
    ensures sec.Secret?
  {
    Secret(ObjectMeta(p.name + "-admin-password", p.namespace, map[], Some(p.name)),
           map["password" := password])
  }

  /** pulpContainerAuth; the key pair is generated outside. */
  function ContainerAuthSecret(p: Pulp, privateKey: string, publicKey: string): (sec: Obj)
    ensures sec.Secret?
  {
    Secret(ObjectMeta(p.spec.containerTokenSecret, p.namespace, map[], None),
           map["container_auth_private_key.pem" := privateKey,
               "container_auth_public_key.pem" := publicKey])
  }

  /** The admin-password object is always named after the default, so under
      a custom name of two or more characters it differs from the name the
      pass provisions under; and of the generated secrets only the admin
      password is given the descriptor as controller owner. */
  lemma GeneratedSecretsNamesAndOwners(p: Pulp, key: string, pwd: string, priv: string, pub: string)
    ensures (AdminPasswordSecret(p, pwd).meta.name == AdminSecretName(p))
              <==> (|p.spec.adminPasswordSecret| <= 1 || p.spec.adminPasswordSecret == p.name + "-admin-password")
    ensures ContainerAuthSecret(p, priv, pub).meta.name == p.spec.containerTokenSecret
    ensures AdminPasswordSecret(p, pwd).meta.controller == Some(p.name)
    ensures DBFieldsEncryptionSecret(p, key).meta.controller.None?
    ensures ContainerAuthSecret(p, priv, pub).meta.controller.None?
  {
  }

  // ------------------------------------------------------------ token server

  /** The TOKEN_SERVER URL, chosen by the ingress type. */
  function TokenServer(p: Pulp, rootUrl: string): (url: string)
    ensures |url| >= 7 && url[|url| - 7..] == "/token/"
  {
    if p.spec.ingressType == "route" then
      rootUrl + "/token/"
    else if p.spec.ingressType == "ingress" then
      var proto := if |p.spec.ingressTLSSecret| > 0 then "https" else "http";
      var host := if |p.spec.hostname| > 0 then p.spec.hostname else p.spec.ingressHost;
      proto + "://" + host + "/token/"
    else
      "http://" + p.name + "-api-svc." + p.namespace + ".svc.cluster.local:24817/token/"
  }

  lemma Itoa24817()
    ensures Decimal.IntToDecimal(24817) == "24817"
  {
    assert Decimal.NatToDecimal(2) == "2";
    assert Decimal.NatToDecimal(24) == "24";
    assert Decimal.NatToDecimal(248) == "248";
    assert Decimal.NatToDecimal(2481) == "2481";
  }

  /** Without a route or an ingress the token server is the api service's
      in-cluster address at the service's own port. */
  lemma InternalTokenServerIsApiService(p: Pulp, rootUrl: string)
    requires p.spec.ingressType != "route" && p.spec.ingressType != "ingress"
    ensures var svc := ServiceForAPI(p);
            TokenServer(p, rootUrl)
            == "http://" + svc.meta.name + "." + svc.meta.namespace + ".svc.cluster.local:"
               + Decimal.IntToDecimal(svc.svcSpec.ports[0].port) + "/token/"
  {
    var svc := ServiceForAPI(p);
    Itoa24817();
    assert svc.svcSpec.ports[0].port == 24817;
    var a, n := "http://", p.name;
    ConcatAssoc(a, n, "-api-svc");
    ConcatAssoc(a + n, "-api-svc", ".");
    assert "-api-svc" + "." == "-api-svc.";
    var r3 := a + n + "-api-svc." + p.namespace;
    ConcatAssoc(r3, ".svc.cluster.local:", "24817");
    ConcatAssoc(r3, ".svc.cluster.local:" + "24817", "/token/");
    assert ".svc.cluster.local:" + "24817" + "/token/" == ".svc.cluster.local:24817/token/";
  }

  lemma ConcatAssoc(a: string, b: string, c: string)
    ensures a + b + c == a + (b + c)
  {
  }

  /** Behind a route the token server sits under the root URL. */
  lemma RouteTokenServer(p: Pulp, rootUrl: string)
    requires p.spec.ingressType == "route"
    ensures TokenServer(p, rootUrl) == rootUrl + "/token/"
  {
  }

  /** Under an ingress the URL uses https exactly when a TLS secret is set,
      and the deprecated hostname field overrides the ingress host. */
  lemma IngressTokenServer(p: Pulp, rootUrl: string)
    requires p.spec.ingressType == "ingress"
    ensures |p.spec.ingressTLSSecret| > 0 && |p.spec.hostname| > 0 ==>
              TokenServer(p, rootUrl) == "https://" + p.spec.hostname + "/token/"
    ensures |p.spec.ingressTLSSecret| > 0 && |p.spec.hostname| == 0 ==>
              TokenServer(p, rootUrl) == "https://" + p.spec.ingressHost + "/token/"
    ensures |p.spec.ingressTLSSecret| == 0 && |p.spec.hostname| > 0 ==>
              TokenServer(p, rootUrl) == "http://" + p.spec.hostname + "/token/"
    ensures |p.spec.ingressTLSSecret| == 0 && |p.spec.hostname| == 0 ==>
              TokenServer(p, rootUrl) == "http://" + p.spec.ingressHost + "/token/"
  {
  }

  // ----------------------------------------------------------- settings text

  /** One setting of settings.py: the Python name it assigns ("" for the
      leading comment) and its full text without the final newline. */
  datatype Line = Line(key: string, text: string)

  function Render(lines: seq<Line>): string {
    if lines == [] then "" else lines[0].text + "\n" + Render(lines[1..])
  }

  predicate Emits(lines: seq<Line>, key: string) {
    exists i :: 0 <= i < |lines| && lines[i].key == key
  }

  lemma {:induction false} RenderAppend(a: seq<Line>, b: seq<Line>)
    ensures Render(a + b) == Render(a) + Render(b)
  {
    if a != [] {
      assert (a + b)[0] == a[0] && (a + b)[1..] == a[1..] + b;
      RenderAppend(a[1..], b);
      calc {
        Render(a + b);
        a[0].text + "\n" + Render(a[1..] + b);
        a[0].text + "\n" + (Render(a[1..]) + Render(b));
        (a[0].text + "\n" + Render(a[1..])) + Render(b);
        Render(a) + Render(b);
      }
    } else {
      assert a + b == b;
    }
  }

  datatype DatabaseConfig = DatabaseConfig(host: string, port: string, user: string, password: string, name: string, sslMode: string)

  /** The database connection: from the operator's postgres configuration
      secret (or the deprecated override) when no external database secret is
      set, else from the external secret. A failed read is only logged by the
      source; the values are then whatever the read returned. */
  function DatabaseConnection(p: Pulp, h: Collaborators): DatabaseConfig {
    if |p.spec.database.externalDBSecret| == 0 then
      var secret := if |p.spec.postgresConfigurationSecret| > 0 then p.spec.postgresConfigurationSecret
                    else p.name + "-postgres-configuration";
      var d := h.retrieveSecretData(secret, p.namespace, true, ["username", "password", "database", "port", "sslmode"]).data;
      DatabaseConfig(p.name + "-database-svc", Value(d, "port"), Value(d, "username"), Value(d, "password"),
                     Value(d, "database"), Value(d, "sslmode"))
    else
      var d := h.retrieveSecretData(p.spec.database.externalDBSecret, p.namespace, true,
                                    ["POSTGRES_HOST", "POSTGRES_PORT", "POSTGRES_USERNAME",
                                     "POSTGRES_PASSWORD", "POSTGRES_DB_NAME", "POSTGRES_SSLMODE"]).data;
      DatabaseConfig(Value(d, "POSTGRES_HOST"), Value(d, "POSTGRES_PORT"), Value(d, "POSTGRES_USERNAME"),
                     Value(d, "POSTGRES_PASSWORD"), Value(d, "POSTGRES_DB_NAME"), Value(d, "POSTGRES_SSLMODE"))
  }

  /** The external database secret takes precedence: once it is named, the
      postgres configuration secret (custom or not) plays no part. Without
      it, an unset configuration secret means `<name>-postgres-configuration`,
      and the host is the operator's own database service whatever the
      secret holds. */
  lemma DatabaseConnectionPrecedence(p: Pulp, h: Collaborators, h2: Collaborators, cfg: string)
    ensures |p.spec.database.externalDBSecret| > 0 ==>
              DatabaseConnection(p.(spec := p.spec.(postgresConfigurationSecret := cfg)), h) == DatabaseConnection(p, h)
    ensures |p.spec.database.externalDBSecret| == 0 && |p.spec.postgresConfigurationSecret| == 0 ==>
              DatabaseConnection(p, h)
              == DatabaseConnection(p.(spec := p.spec.(postgresConfigurationSecret := p.name + "-postgres-configuration")), h)
    ensures |p.spec.database.externalDBSecret| == 0 ==>
              DatabaseConnection(p, h).host == DatabaseConnection(p, h2).host == p.name + "-database-svc"
  {
  }

  /** The fixed head of settings.py. */
  function BaseLines(doNotEdit: string, rootUrl: string, db: DatabaseConfig): seq<Line> {
    [ Line("", doNotEdit),
      Line("DB_ENCRYPTION_KEY", "DB_ENCRYPTION_KEY = \"/etc/pulp/keys/database_fields.symmetric.key\""),
      Line("GALAXY_COLLECTION_SIGNING_SERVICE", "GALAXY_COLLECTION_SIGNING_SERVICE = \"ansible-default\""),
      Line("GALAXY_CONTAINER_SIGNING_SERVICE", "GALAXY_CONTAINER_SIGNING_SERVICE = \"container-default\""),
      Line("ANSIBLE_API_HOSTNAME", "ANSIBLE_API_HOSTNAME = \"" + rootUrl + "\""),
      Line("ANSIBLE_CERTS_DIR", "ANSIBLE_CERTS_DIR = \"/etc/pulp/keys/\""),
      Line("CONTENT_ORIGIN", "CONTENT_ORIGIN = \"" + rootUrl + "\""),
      Line("DATABASES",
           "DATABASES = {\n"
           + "\t'default': {\n"
           + "\t\t'HOST': '" + db.host + "',\n"
           + "\t\t'ENGINE': 'django.db.backends.postgresql_psycopg2',\n"
           + "\t\t'NAME': '" + db.name + "',\n"
           + "\t\t'USER': '" + db.user + "',\n"
           + "\t\t'PASSWORD': '" + db.password + "',\n"
           + "\t\t'PORT': '" + db.port + "',\n"
           + "\t\t'CONN_MAX_AGE': 0,\n"
           + "\t\t'OPTIONS': { 'sslmode': '" + db.sslMode + "' },\n"
           + "\t}\n"
           + "}"),
      Line("GALAXY_FEATURE_FLAGS", "GALAXY_FEATURE_FLAGS = {\n\t'execution_environments': 'True',\n}"),
      Line("PRIVATE_KEY_PATH", "PRIVATE_KEY_PATH = \"/etc/pulp/keys/container_auth_private_key.pem\""),
      Line("PUBLIC_KEY_PATH", "PUBLIC_KEY_PATH = \"/etc/pulp/keys/container_auth_public_key.pem\""),
      Line("STATIC_ROOT", "STATIC_ROOT = \"/var/lib/operator/static/\""),
      Line("TOKEN_AUTH_DISABLED", "TOKEN_AUTH_DISABLED = False"),
      Line("TOKEN_SIGNATURE_ALGORITHM", "TOKEN_SIGNATURE_ALGORITHM = \"ES256\"") ]
  }

  const ApiRootLines := [Line("API_ROOT", "API_ROOT = \"/pulp/\"")]

  datatype CacheConfig = CacheConfig(host: string, port: string, password: string, db: string)

  /** The redis connection: the operator's own redis service (port 6379 when
      none is configured) unless an external cache secret is named, whose
      read error the source discards. */
  function CacheConnection(p: Pulp, h: Collaborators): CacheConfig {
    if |p.spec.cache.externalCacheSecret| == 0 then
      var port := if p.spec.cache.redisPort == 0 then Decimal.IntToDecimal(6379)
                  else Decimal.IntToDecimal(p.spec.cache.redisPort);
      CacheConfig(p.name + "-redis-svc." + p.namespace, port, "", "")
    else
      var d := h.retrieveSecretData(p.spec.cache.externalCacheSecret, p.namespace, true,
                                    ["REDIS_HOST", "REDIS_PORT", "REDIS_PASSWORD", "REDIS_DB"]).data;
      CacheConfig(Value(d, "REDIS_HOST"), Value(d, "REDIS_PORT"), Value(d, "REDIS_PASSWORD"), Value(d, "REDIS_DB"))
  }

  lemma Itoa6379()
    ensures Decimal.IntToDecimal(6379) == "6379"
  {
    assert Decimal.NatToDecimal(6) == "6";
    assert Decimal.NatToDecimal(63) == "63";
    assert Decimal.NatToDecimal(637) == "637";
  }

  /** With the operator's redis: host `<name>-redis-svc.<namespace>`, no
      password or database, and a port that is 6379 when unset and otherwise
      renders the configured number (it parses back to it). */
  lemma OperatorCacheConnection(p: Pulp, h: Collaborators)
    requires |p.spec.cache.externalCacheSecret| == 0
    ensures CacheConnection(p, h).host == p.name + "-redis-svc." + p.namespace
    ensures CacheConnection(p, h).password == "" && CacheConnection(p, h).db == ""
    ensures p.spec.cache.redisPort == 0 ==> CacheConnection(p, h).port == "6379"
    ensures p.spec.cache.redisPort != 0 ==>
              var port := CacheConnection(p, h).port;
              |port| >= 1 && Decimal.AllDigits(if port[0] == '-' then port[1..] else port)
              && Decimal.ParseDecimal(port) == p.spec.cache.redisPort
  {
    Itoa6379();
    Decimal.IntToDecimalRoundTrip(p.spec.cache.redisPort);
  }

  /** The external cache secret takes precedence: once it is named, the
      configured redis port plays no part. */
  lemma CacheConnectionPrecedence(p: Pulp, h: Collaborators, port: int)
    requires |p.spec.cache.externalCacheSecret| > 0
    ensures CacheConnection(p.(spec := p.spec.(cache := p.spec.cache.(redisPort := port))), h) == CacheConnection(p, h)
  {
  }

  /** The api service and the database and cache connections of settings.py
      do not read the three fields the pass writes back to the descriptor
      (ContainerTokenSecret, AdminPasswordSecret, DBFieldsEncryptionSecret),
      so they are the same before and after those writes. */
  lemma WrittenFieldsUnread(p: Pulp, h: Collaborators, token: string, admin: string, dbFields: string)
    ensures var q := p.(spec := p.spec.(containerTokenSecret := token, adminPasswordSecret := admin,
                                        dbFieldsEncryptionSecret := dbFields));
            && DatabaseConnection(q, h) == DatabaseConnection(p, h)
            && CacheConnection(q, h) == CacheConnection(p, h)
            && ServiceForAPI(q) == ServiceForAPI(p)
  {
  }

  function CacheLines(c: CacheConfig): seq<Line> {
    [ Line("CACHE_ENABLED", "CACHE_ENABLED = True"),
      Line("REDIS_HOST", "REDIS_HOST =  \"" + c.host + "\""),
      Line("REDIS_PORT", "REDIS_PORT =  \"" + c.port + "\""),
      Line("REDIS_PASSWORD", "REDIS_PASSWORD = \"" + c.password + "\""),
      Line("REDIS_DB", "REDIS_DB = \"" + c.db + "\"") ]
  }

  const AzureKeys := ["azure-account-name", "azure-account-key", "azure-container", "azure-container-path", "azure-connection-string"]
  const S3Keys := ["s3-access-key-id", "s3-secret-access-key", "s3-bucket-name"]
  const S3OptionalKeys := ["s3-endpoint", "s3-region"]

  function AzureLines(d: map<string, string>): seq<Line> {
    [ Line("AZURE_CONNECTION_STRING", "AZURE_CONNECTION_STRING = '" + Value(d, "azure-connection-string") + "'"),
      Line("AZURE_LOCATION", "AZURE_LOCATION = '" + Value(d, "azure-container-path") + "'"),
      Line("AZURE_ACCOUNT_NAME", "AZURE_ACCOUNT_NAME = '" + Value(d, "azure-account-name") + "'"),
      Line("AZURE_ACCOUNT_KEY", "AZURE_ACCOUNT_KEY = '" + Value(d, "azure-account-key") + "'"),
      Line("AZURE_CONTAINER", "AZURE_CONTAINER = '" + Value(d, "azure-container") + "'"),
      Line("AZURE_URL_EXPIRATION_SECS", "AZURE_URL_EXPIRATION_SECS = 60"),
      Line("AZURE_OVERWRITE_FILES", "AZURE_OVERWRITE_FILES = True"),
      Line("DEFAULT_FILE_STORAGE", "DEFAULT_FILE_STORAGE = \"storages.backends.azure_storage.AzureStorage\"") ]
  }

  /** The S3 block: the endpoint and region lines only for non-empty optional
      values, then the credentials and the fixed S3 settings. */
  function S3Lines(required: map<string, string>, optional: map<string, string>): seq<Line> {
    var endpoint := Value(optional, "s3-endpoint");
    var region := Value(optional, "s3-region");
    (if |endpoint| > 0 then [Line("AWS_S3_ENDPOINT_URL", "AWS_S3_ENDPOINT_URL = \"" + endpoint + "\"")] else [])
    + (if |region| > 0 then [Line("AWS_S3_REGION_NAME", "AWS_S3_REGION_NAME = \"" + region + "\"")] else [])
    + S3FixedLines(required)
  }

  function S3FixedLines(required: map<string, string>): seq<Line> {
    [ Line("AWS_ACCESS_KEY_ID", "AWS_ACCESS_KEY_ID = '" + Value(required, "s3-access-key-id") + "'"),
      Line("AWS_SECRET_ACCESS_KEY", "AWS_SECRET_ACCESS_KEY = '" + Value(required, "s3-secret-access-key") + "'"),
      Line("AWS_STORAGE_BUCKET_NAME", "AWS_STORAGE_BUCKET_NAME = '" + Value(required, "s3-bucket-name") + "'"),
      Line("AWS_DEFAULT_ACL", "AWS_DEFAULT_ACL = \"@none None\""),
      Line("S3_USE_SIGV4", "S3_USE_SIGV4 = True"),
      Line("AWS_S3_SIGNATURE_VERSION", "AWS_S3_SIGNATURE_VERSION = \"s3v4\""),
      Line("AWS_S3_ADDRESSING_STYLE", "AWS_S3_ADDRESSING_STYLE = \"path\""),
      Line("DEFAULT_FILE_STORAGE", "DEFAULT_FILE_STORAGE = \"storages.backends.s3boto3.S3Boto3Storage\""),
      Line("MEDIA_ROOT", "MEDIA_ROOT = \"\"") ]
  }

  /** AWS_S3_ENDPOINT_URL and AWS_S3_REGION_NAME are each emitted exactly when
      the optional key is non-empty, with that value; the credentials are
      always emitted. */
  lemma S3OptionalLines(required: map<string, string>, optional: map<string, string>)
    ensures Emits(S3Lines(required, optional), "AWS_S3_ENDPOINT_URL") <==> |Value(optional, "s3-endpoint")| > 0
    ensures Emits(S3Lines(required, optional), "AWS_S3_REGION_NAME") <==> |Value(optional, "s3-region")| > 0
    ensures |Value(optional, "s3-endpoint")| > 0 ==>
              S3Lines(required, optional)[0].text == "AWS_S3_ENDPOINT_URL = \"" + Value(optional, "s3-endpoint") + "\""
    ensures |Value(optional, "s3-region")| > 0 ==>
              var i := if |Value(optional, "s3-endpoint")| > 0 then 1 else 0;
              S3Lines(required, optional)[i].text == "AWS_S3_REGION_NAME = \"" + Value(optional, "s3-region") + "\""
    ensures Emits(S3Lines(required, optional), "AWS_ACCESS_KEY_ID")
  {
    var e := Value(optional, "s3-endpoint");
    var r := Value(optional, "s3-region");
    var lines := S3Lines(required, optional);
    var fixed := S3FixedLines(required);
    var head := (if |e| > 0 then [Line("AWS_S3_ENDPOINT_URL", "AWS_S3_ENDPOINT_URL = \"" + e + "\"")] else [])
                + (if |r| > 0 then [Line("AWS_S3_REGION_NAME", "AWS_S3_REGION_NAME = \"" + r + "\"")] else []);
    assert lines == head + fixed;
    assert forall i :: 0 <= i < |fixed| ==> |fixed[i].key| != 19 && |fixed[i].key| != 18;
    forall i | |head| <= i < |lines|
      ensures lines[i].key != "AWS_S3_ENDPOINT_URL" && lines[i].key != "AWS_S3_REGION_NAME"
    {
      assert lines[i] == fixed[i - |head|];
    }
    var endpointLine := Line("AWS_S3_ENDPOINT_URL", "AWS_S3_ENDPOINT_URL = \"" + e + "\"");
    var regionLine := Line("AWS_S3_REGION_NAME", "AWS_S3_REGION_NAME = \"" + r + "\"");
    assert |endpointLine.key| == 19 && |regionLine.key| == 18;
    assert head == (if |e| > 0 then [endpointLine] else []) + (if |r| > 0 then [regionLine] else []);
    forall i | 0 <= i < |head|
      ensures lines[i].key == "AWS_S3_ENDPOINT_URL" ==> |e| > 0
      ensures lines[i].key == "AWS_S3_REGION_NAME" ==> |r| > 0
    {
      assert lines[i] == head[i];
      assert head[i] == endpointLine || head[i] == regionLine;
      assert head[i] == endpointLine ==> |e| > 0;
      assert head[i] == regionLine ==> |r| > 0;
    }
    if |e| > 0 { assert lines[0] == endpointLine; }
    assert lines[|head|].key == "AWS_ACCESS_KEY_ID";
    if |r| > 0 {
      assert lines[|head| - 1] == regionLine;
      assert |head| - 1 == (if |e| > 0 then 1 else 0);
    }
  }

  function TokenServerLines(p: Pulp, rootUrl: string): seq<Line> {
    [Line("TOKEN_SERVER", "TOKEN_SERVER = \"" + TokenServer(p, rootUrl) + "\"")]
  }

  // --------------------------------------------------------------- sections

  datatype SectionKind =
    | BaseSection | ApiRootSection | CacheSection | AzureSection | S3Section
    | SsoSection | TokenServerSection | CustomSection

  /** The position of each kind in the source's fixed order. */
  function Rank(k: SectionKind): nat {
    match k
    case BaseSection => 0
    case ApiRootSection => 1
    case CacheSection => 2
    case AzureSection => 3
    case S3Section => 4
    case SsoSection => 5
    case TokenServerSection => 6
    case CustomSection => 7
  }

  /** A section either appends lines or rewrites the whole text so far. */
  datatype Section =
    | Append(kind: SectionKind, lines: seq<Line>)
    | Rewrite(kind: SectionKind, edit: string -> string)

  /** The text obtained by applying the sections in order to `acc`. */
  function Assemble(sections: seq<Section>, acc: string): string
    decreases |sections|
  {
    if sections == [] then acc
    else
      var next := match sections[0]
                  case Append(_, lines) => acc + Render(lines)
                  case Rewrite(_, edit) => edit(acc);
      Assemble(sections[1..], next)
  }

  lemma {:induction false} AssembleAppend(a: seq<Section>, b: seq<Section>, acc: string)
    ensures Assemble(a + b, acc) == Assemble(b, Assemble(a, acc))
    decreases |a|
  {
    if a != [] {
      assert (a + b)[0] == a[0] && (a + b)[1..] == a[1..] + b;
      var next := match a[0]
                  case Append(_, lines) => acc + Render(lines)
                  case Rewrite(_, edit) => edit(acc);
      AssembleAppend(a[1..], b, next);
    } else {
      assert a + b == b;
    }
  }

  predicate AllAppends(sections: seq<Section>) {
    forall i :: 0 <= i < |sections| ==> sections[i].Append?
  }

  /** The lines of a run of appending sections, in order. */
  function LinesOf(sections: seq<Section>): seq<Line>
    requires AllAppends(sections)
  {
    if sections == [] then [] else sections[0].lines + LinesOf(sections[1..])
  }

  lemma {:induction false} LinesOfAppend(a: seq<Section>, b: seq<Section>)
    requires AllAppends(a) && AllAppends(b)
    ensures AllAppends(a + b) && LinesOf(a + b) == LinesOf(a) + LinesOf(b)
    decreases |a|
  {
    if a != [] {
      assert (a + b)[0] == a[0] && (a + b)[1..] == a[1..] + b;
      LinesOfAppend(a[1..], b);
    } else {
      assert a + b == b;
    }
  }

  lemma LinesOfSingle(k: SectionKind, lines: seq<Line>)
    ensures AllAppends([Append(k, lines)]) && LinesOf([Append(k, lines)]) == lines
  {
    assert [Append(k, lines)][1..] == [];
  }

  /** Appending sections only add their rendered lines to the text. */
  lemma {:induction false} AssembleAppends(sections: seq<Section>, acc: string)
    requires AllAppends(sections)
    ensures Assemble(sections, acc) == acc + Render(LinesOf(sections))
    decreases |sections|
  {
    if sections != [] {
      var lines := sections[0].lines;
      AssembleAppends(sections[1..], acc + Render(lines));
      RenderAppend(lines, LinesOf(sections[1..]));
    }
  }

  predicate HasSection(sections: seq<Section>, k: SectionKind) {
    exists i :: 0 <= i < |sections| && sections[i].kind == k
  }

  /** The layout of settings.py: base and API_ROOT, the optional cache,
      object-storage and SSO sections, then TOKEN_SERVER and the custom
      settings. */
  function Layout(base: seq<Line>, cache: seq<Section>, storage: seq<Section>, sso: seq<Section>,
                  token: seq<Line>, custom: string -> string): seq<Section>
  {
    [Append(BaseSection, base), Append(ApiRootSection, ApiRootLines)]
    + cache + storage + sso
    + [Append(TokenServerSection, token), Rewrite(CustomSection, custom)]
  }

  /** The shapes the optional parts of the layout can take. */
  predicate OptionalParts(cache: seq<Section>, storage: seq<Section>, sso: seq<Section>) {
    && |cache| <= 1 && (forall i :: 0 <= i < |cache| ==> cache[i].Append? && cache[i].kind == CacheSection)
    && |storage| <= 1
    && (forall i :: 0 <= i < |storage| ==> storage[i].Append? && storage[i].kind in {AzureSection, S3Section})
    && |sso| <= 1 && (forall i :: 0 <= i < |sso| ==> sso[i].Rewrite? && sso[i].kind == SsoSection)
  }

  lemma LayoutOrdered(base: seq<Line>, cache: seq<Section>, storage: seq<Section>, sso: seq<Section>,
                      token: seq<Line>, custom: string -> string)
    requires OptionalParts(cache, storage, sso)
    ensures var s := Layout(base, cache, storage, sso, token, custom);
            forall i, j :: 0 <= i < j < |s| ==> Rank(s[i].kind) < Rank(s[j].kind)
  {
    var s := Layout(base, cache, storage, sso, token, custom);
    var c, st, so := 2, 2 + |cache|, 2 + |cache| + |storage|;
    var t := so + |sso|;
    // each position's rank lies in the band of the part it belongs to
    assert forall i :: 0 <= i < c ==> Rank(s[i].kind) == i;
    assert forall i :: c <= i < st ==> s[i] == cache[i - c] && Rank(s[i].kind) == 2;
    assert forall i :: st <= i < so ==> s[i] == storage[i - st] && 3 <= Rank(s[i].kind) <= 4;
    assert forall i :: so <= i < t ==> s[i] == sso[i - so] && Rank(s[i].kind) == 5;
    assert forall i :: t <= i < |s| ==> Rank(s[i].kind) == 6 + (i - t);
  }

  lemma LayoutPresence(base: seq<Line>, cache: seq<Section>, storage: seq<Section>, sso: seq<Section>,
                       token: seq<Line>, custom: string -> string, k: SectionKind)
    requires OptionalParts(cache, storage, sso)
    ensures var s := Layout(base, cache, storage, sso, token, custom);
            HasSection(s, k) <==>
              || k in {BaseSection, ApiRootSection, TokenServerSection, CustomSection}
              || (k == CacheSection && |cache| == 1)
              || (k in {AzureSection, S3Section} && |storage| == 1 && storage[0].kind == k)
              || (k == SsoSection && |sso| == 1)
  {
    var s := Layout(base, cache, storage, sso, token, custom);
    var c, st, so := 2, 2 + |cache|, 2 + |cache| + |storage|;
    var t := so + |sso|;
    assert s[0].kind == BaseSection && s[1].kind == ApiRootSection;
    assert s[t].kind == TokenServerSection && s[t + 1].kind == CustomSection;
    if |cache| == 1 { assert s[c] == cache[0]; }
    if |storage| == 1 { assert s[st] == storage[0]; }
    if |sso| == 1 { assert s[so] == sso[0]; }
    if HasSection(s, k) {
      var i :| 0 <= i < |s| && s[i].kind == k;
      if c <= i < st { assert s[i] == cache[i - c]; }
      else if st <= i < so { assert s[i] == storage[i - st]; }
      else if so <= i < t { assert s[i] == sso[i - so]; }
    }
  }

  lemma LayoutText(base: seq<Line>, cache: seq<Section>, storage: seq<Section>,
                   token: seq<Line>, custom: string -> string)
    requires OptionalParts(cache, storage, [])
    ensures AllAppends(cache) && AllAppends(storage)
    ensures Assemble(Layout(base, cache, storage, [], token, custom), "")
            == custom(Render(base) + Render(ApiRootLines) + Render(LinesOf(cache)) + Render(LinesOf(storage))
                      + Render(token))
  {
    var head := [Append(BaseSection, base), Append(ApiRootSection, ApiRootLines)];
    var tail := [Append(TokenServerSection, token)];
    var appends := head + cache + storage + tail;
    assert Layout(base, cache, storage, [], token, custom) == appends + [Rewrite(CustomSection, custom)];
    LayoutLines(base, cache, storage, token);
    AssembleAppend(appends, [Rewrite(CustomSection, custom)], "");
    AssembleAppends(appends, "");
    var text := Assemble(appends, "");
    assert Assemble([Rewrite(CustomSection, custom)], text) == custom(text) by {
      assert [Rewrite(CustomSection, custom)][1..] == [];
    }
    RenderConcat(base, ApiRootLines, LinesOf(cache), LinesOf(storage), token);
    assert text == Render(base + ApiRootLines + LinesOf(cache) + LinesOf(storage) + token);
  }

  lemma LayoutLines(base: seq<Line>, cache: seq<Section>, storage: seq<Section>, token: seq<Line>)
    requires AllAppends(cache) && AllAppends(storage)
    ensures var appends := [Append(BaseSection, base), Append(ApiRootSection, ApiRootLines)]
                           + cache + storage + [Append(TokenServerSection, token)];
            AllAppends(appends)
            && LinesOf(appends) == base + ApiRootLines + LinesOf(cache) + LinesOf(storage) + token
  {
    var head := [Append(BaseSection, base), Append(ApiRootSection, ApiRootLines)];
    var tail := [Append(TokenServerSection, token)];
    assert AllAppends(head) && AllAppends(tail);
    assert LinesOf(head) == base + ApiRootLines by {
      assert LinesOf(head[1..]) == ApiRootLines + LinesOf([]);
    }
    assert LinesOf(tail) == token + LinesOf([]);
    LinesOfAppend(head, cache);
    LinesOfAppend(head + cache, storage);
    LinesOfAppend(head + cache + storage, tail);
  }

  lemma RenderConcat(a: seq<Line>, b: seq<Line>, c: seq<Line>, d: seq<Line>, e: seq<Line>)
    ensures Render(a + b + c + d + e) == Render(a) + Render(b) + Render(c) + Render(d) + Render(e)
  {
    RenderAppend(a, b);
    RenderAppend(a + b, c);
    RenderAppend(a + b + c, d);
    RenderAppend(a + b + c + d, e);
  }

  // ------------------------------------------------------ settings sections

  /** The object-storage sections; None when the backend's required secret
      data cannot be read (the source then returns an empty Secret). */
  function ObjectStorageSections(p: Pulp, h: Collaborators): (r: Option<seq<Section>>)
    ensures r.Some? ==> |r.value| <= 1
    ensures r.Some? ==> forall i :: 0 <= i < |r.value| ==> r.value[i].Append? && r.value[i].kind in {AzureSection, S3Section}
    ensures r.Some? && h.storageType(p).AzureObject? ==> |r.value| == 1 && r.value[0].kind == AzureSection
    ensures r.Some? && h.storageType(p).S3Object? ==> |r.value| == 1 && r.value[0].kind == S3Section
    ensures r.Some? && !h.storageType(p).AzureObject? && !h.storageType(p).S3Object? ==> r.value == []
  {
    match h.storageType(p)
    case AzureObject =>
      var r := h.retrieveSecretData(p.spec.objectStorageAzureSecret, p.namespace, true, AzureKeys);
      if r.err.Some? then None else Some([Append(AzureSection, AzureLines(r.data))])
    case S3Object =>
      var r := h.retrieveSecretData(p.spec.objectStorageS3Secret, p.namespace, true, S3Keys);
      if r.err.Some? then None
      else
        var optional := h.retrieveSecretData(p.spec.objectStorageS3Secret, p.namespace, false, S3OptionalKeys).data;
        Some([Append(S3Section, S3Lines(r.data, optional))])
    case _ => Some([])
  }

  /** The backend's required secret data cannot be read. */
  predicate ObjectStorageUnreadable(p: Pulp, h: Collaborators) {
    || (h.storageType(p).AzureObject?
        && h.retrieveSecretData(p.spec.objectStorageAzureSecret, p.namespace, true, AzureKeys).err.Some?)
    || (h.storageType(p).S3Object?
        && h.retrieveSecretData(p.spec.objectStorageS3Secret, p.namespace, true, S3Keys).err.Some?)
  }

  lemma ObjectStorageSectionsNone(p: Pulp, h: Collaborators)
    ensures ObjectStorageSections(p, h).None? <==> ObjectStorageUnreadable(p, h)
  {
  }

  /** The object-storage section renders the data read from the backend's
      secret: the Azure keys, or the required S3 keys plus the optional
      endpoint and region read without requiring them. */
  lemma ObjectStorageSectionLines(p: Pulp, h: Collaborators)
    requires !ObjectStorageUnreadable(p, h)
    ensures h.storageType(p).AzureObject? ==>
              ObjectStorageSections(p, h).value[0].lines
              == AzureLines(h.retrieveSecretData(p.spec.objectStorageAzureSecret, p.namespace, true, AzureKeys).data)
    ensures h.storageType(p).S3Object? ==>
              ObjectStorageSections(p, h).value[0].lines
              == S3Lines(h.retrieveSecretData(p.spec.objectStorageS3Secret, p.namespace, true, S3Keys).data,
                         h.retrieveSecretData(p.spec.objectStorageS3Secret, p.namespace, false, S3OptionalKeys).data)
  {
  }

  function CacheSections(p: Pulp, h: Collaborators): (r: seq<Section>)
    ensures |r| == (if p.spec.cache.enabled then 1 else 0)
    ensures forall i :: 0 <= i < |r| ==> r[i].Append? && r[i].kind == CacheSection
  {
    if p.spec.cache.enabled then [Append(CacheSection, CacheLines(CacheConnection(p, h)))] else []
  }

  function SsoSections(p: Pulp, h: Collaborators): (r: seq<Section>)
    ensures |r| == (if |p.spec.ssoSecret| > 0 then 1 else 0)
    ensures forall i :: 0 <= i < |r| ==> r[i].Rewrite? && r[i].kind == SsoSection
  {
    if |p.spec.ssoSecret| > 0 then [Rewrite(SsoSection, (s: string) => h.ssoConfig(p, s))] else []
  }

  /** addCustomPulpSettings as a rewrite of the settings text. */
  function CustomRewrite(p: Pulp, h: Collaborators): string -> string {
    (s: string) => h.customSettings(p, s)
  }

  /** The sections of settings.py in the order pulpServerSecret builds them. */
  function SettingsSections(p: Pulp, h: Collaborators): Option<seq<Section>> {
    match ObjectStorageSections(p, h)
    case None => None
    case Some(storage) =>
      var rootUrl := h.rootUrl(p);
      Some(Layout(BaseLines(h.doNotEditMessage, rootUrl, DatabaseConnection(p, h)),
                  CacheSections(p, h), storage, SsoSections(p, h),
                  TokenServerLines(p, rootUrl), CustomRewrite(p, h)))
  }

  lemma SettingsSectionsNone(p: Pulp, h: Collaborators)
    ensures SettingsSections(p, h).None? <==> ObjectStorageUnreadable(p, h)
  {
    ObjectStorageSectionsNone(p, h);
  }

  /** The text of settings.py, when the object-storage data can be read. */
  function SettingsText(p: Pulp, h: Collaborators): string
    requires !ObjectStorageUnreadable(p, h)
  {
    SettingsSectionsNone(p, h);
    Assemble(SettingsSections(p, h).value, "")
  }

  /** The `<name>-server` secret owned by the descriptor, holding settings.py. */
  function ServerSecretHolding(p: Pulp, settings: string): (sec: Obj)
    ensures sec.Secret? && sec.meta == ObjectMeta(p.name + "-server", p.namespace, map[], Some(p.name))
    ensures sec.stringData.Keys == {"settings.py"} && sec.stringData["settings.py"] == settings
  {
    Secret(ObjectMeta(p.name + "-server", p.namespace, map[], Some(p.name)), map["settings.py" := settings])
  }

  /** pulpServerSecret: the `<name>-server` secret holding settings.py, or an
      empty Secret when the object-storage secret cannot be read. */
  function PulpServerSecret(p: Pulp, h: Collaborators): (sec: Obj)
    ensures sec.Secret?
    ensures ObjectStorageUnreadable(p, h) ==> sec == Zero(SecretKind)
    ensures !ObjectStorageUnreadable(p, h) ==>
              && sec.meta == ObjectMeta(p.name + "-server", p.namespace, map[], Some(p.name))
              && sec.stringData.Keys == {"settings.py"}
  {
    if ObjectStorageUnreadable(p, h) then Zero(SecretKind) else ServerSecretHolding(p, SettingsText(p, h))
  }

  /** The settings.py the server secret holds is the assembled settings
      text, so the properties of the sections below are properties of the
      Secret the pass creates and checks. */
  lemma ServerSecretHoldsSettings(p: Pulp, h: Collaborators)
    requires !ObjectStorageUnreadable(p, h)
    ensures "settings.py" in PulpServerSecret(p, h).stringData
    ensures PulpServerSecret(p, h).stringData["settings.py"] == SettingsText(p, h)
  {
  }

  // ------------------------------------------------- settings properties

  /** The optional parts of the settings take the shapes the layout allows. */
  lemma SettingsOptionalParts(p: Pulp, h: Collaborators)
    requires !ObjectStorageUnreadable(p, h)
    ensures ObjectStorageSections(p, h).Some?
    ensures OptionalParts(CacheSections(p, h), ObjectStorageSections(p, h).value, SsoSections(p, h))
  {
    ObjectStorageSectionsNone(p, h);
  }

  /** When the object-storage data can be read, the settings are the layout
      of well-formed optional parts. */
  lemma SettingsParts(p: Pulp, h: Collaborators)
    requires !ObjectStorageUnreadable(p, h)
    ensures ObjectStorageSections(p, h).Some? && SettingsSections(p, h).Some?
    ensures OptionalParts(CacheSections(p, h), ObjectStorageSections(p, h).value, SsoSections(p, h))
    ensures var rootUrl := h.rootUrl(p);
            SettingsSections(p, h).value
            == Layout(BaseLines(h.doNotEditMessage, rootUrl, DatabaseConnection(p, h)),
                      CacheSections(p, h), ObjectStorageSections(p, h).value, SsoSections(p, h),
                      TokenServerLines(p, rootUrl), CustomRewrite(p, h))
  {
    SettingsOptionalParts(p, h);
  }

  /** The sections appear in the fixed order base, API_ROOT, cache, Azure,
      S3, SSO, TOKEN_SERVER, custom, each at most once. */
  lemma SettingsSectionsOrdered(p: Pulp, h: Collaborators)
    requires !ObjectStorageUnreadable(p, h)
    ensures SettingsSections(p, h).Some?
    ensures var s := SettingsSections(p, h).value;
            forall i, j :: 0 <= i < j < |s| ==> Rank(s[i].kind) < Rank(s[j].kind)
  {
    SettingsParts(p, h);
    var rootUrl := h.rootUrl(p);
    LayoutOrdered(BaseLines(h.doNotEditMessage, rootUrl, DatabaseConnection(p, h)),
                  CacheSections(p, h), ObjectStorageSections(p, h).value, SsoSections(p, h),
                  TokenServerLines(p, rootUrl), CustomRewrite(p, h));
  }

  /** Which sections are present: base, API_ROOT, TOKEN_SERVER and custom
      always; cache iff enabled; Azure and S3 iff that backend is chosen;
      SSO iff an SSO secret is named. */
  lemma SettingsSectionPresence(p: Pulp, h: Collaborators)
    requires !ObjectStorageUnreadable(p, h)
    ensures SettingsSections(p, h).Some?
    ensures var s := SettingsSections(p, h).value;
            && HasSection(s, BaseSection) && HasSection(s, ApiRootSection)
            && HasSection(s, TokenServerSection) && HasSection(s, CustomSection)
            && (HasSection(s, CacheSection) <==> p.spec.cache.enabled)
            && (HasSection(s, AzureSection) <==> h.storageType(p).AzureObject?)
            && (HasSection(s, S3Section) <==> h.storageType(p).S3Object?)
            && (HasSection(s, SsoSection) <==> |p.spec.ssoSecret| > 0)
  {
    SettingsParts(p, h);
    var rootUrl := h.rootUrl(p);
    var base := BaseLines(h.doNotEditMessage, rootUrl, DatabaseConnection(p, h));
    var cache, storage, sso := CacheSections(p, h), ObjectStorageSections(p, h).value, SsoSections(p, h);
    var token := TokenServerLines(p, rootUrl);
    var custom := CustomRewrite(p, h);
    LayoutPresence(base, cache, storage, sso, token, custom, BaseSection);
    LayoutPresence(base, cache, storage, sso, token, custom, ApiRootSection);
    LayoutPresence(base, cache, storage, sso, token, custom, TokenServerSection);
    LayoutPresence(base, cache, storage, sso, token, custom, CustomSection);
    LayoutPresence(base, cache, storage, sso, token, custom, CacheSection);
    LayoutPresence(base, cache, storage, sso, token, custom, AzureSection);
    LayoutPresence(base, cache, storage, sso, token, custom, S3Section);
    LayoutPresence(base, cache, storage, sso, token, custom, SsoSection);
  }

  /** Under the storage-class backend the settings carry no object-storage
      section: the backends are exclusive. */
  lemma StorageClassExcludesObjectStorage(p: Pulp, h: Collaborators)
    requires StorageClassProvided(h, p)
    ensures SettingsSections(p, h).Some?
    ensures !HasSection(SettingsSections(p, h).value, AzureSection)
    ensures !HasSection(SettingsSections(p, h).value, S3Section)
  {
    SettingsSectionPresence(p, h);
  }

  /** Without SSO, the settings text is the custom-settings rewrite of the
      concatenation base + API_ROOT + cache + object storage + TOKEN_SERVER,
      exactly the source's sequence of appends. */
  lemma SettingsTextWithoutSso(p: Pulp, h: Collaborators)
    requires !ObjectStorageUnreadable(p, h) && |p.spec.ssoSecret| == 0
    ensures ObjectStorageSections(p, h).Some? && SettingsSections(p, h).Some?
    ensures AllAppends(ObjectStorageSections(p, h).value)
    ensures var rootUrl := h.rootUrl(p);
            Assemble(SettingsSections(p, h).value, "")
            == h.customSettings(p,
                 Render(BaseLines(h.doNotEditMessage, rootUrl, DatabaseConnection(p, h)))
                 + Render(ApiRootLines)
                 + (if p.spec.cache.enabled then Render(CacheLines(CacheConnection(p, h))) else "")
                 + Render(LinesOf(ObjectStorageSections(p, h).value))
                 + Render(TokenServerLines(p, rootUrl)))
  {
    SettingsParts(p, h);
    var rootUrl := h.rootUrl(p);
    var base := BaseLines(h.doNotEditMessage, rootUrl, DatabaseConnection(p, h));
    var cache, storage := CacheSections(p, h), ObjectStorageSections(p, h).value;
    var token := TokenServerLines(p, rootUrl);
    var custom := CustomRewrite(p, h);
    assert SsoSections(p, h) == [];
    LayoutText(base, cache, storage, token, custom);
    if p.spec.cache.enabled {
      LinesOfSingle(CacheSection, CacheLines(CacheConnection(p, h)));
    }
  }

  /** The server secret is the empty Secret exactly when the object-storage
      secret cannot be read; otherwise it is `<name>-server`, owned by the
      descriptor, holding only settings.py. */
  lemma ServerSecretEmptyIffStorageUnreadable(p: Pulp, h: Collaborators)
    ensures PulpServerSecret(p, h) == Zero(SecretKind) <==> ObjectStorageUnreadable(p, h)
    ensures !ObjectStorageUnreadable(p, h) ==>
              && PulpServerSecret(p, h).meta == ObjectMeta(p.name + "-server", p.namespace, map[], Some(p.name))
              && PulpServerSecret(p, h).stringData.Keys == {"settings.py"}
  {
    if !ObjectStorageUnreadable(p, h) {
      assert Zero(SecretKind).meta.name == "";
      assert |PulpServerSecret(p, h).meta.name| > 0;
    }
  }
}

=== FILE: controller.dfy ===
/** pulpApiController: one reconciliation pass over the api objects of a Pulp
    descriptor. The cluster calls whose bodies lie outside this model are
    fields of an `Env` (uninterpreted oracles); the pass is specified by the
    function `ApiPass`, and the class `Reconciler` carries it out step by
    step on its own state and is proved to agree with it. */
module ApiController {
  import opened Kube
  import opened ApiBuilders

  /** The generated key material the secret builders embed. */
  datatype Keys = Keys(fernetKey: string, password: string, privateKey: string, publicKey: string)

  /** The collaborators of the pass:
      - `title`: cases.Title(language.English, cases.Compact).String;
      - `deployApi`: the api Deployment builder initDeployment(API_DEPLOYMENT) picks;
      - `create`: createPulpResource, given the definition and the object its builder yields;
      - `deepDerivative`: equality.Semantic.DeepDerivative on claim specs;
      - `update`: r.Update;
      - `updateCRField`: updateCRField on the descriptor;
      - `reconcile`: reconcileObject(expected, found, conditionType);
      - `readFails`: whether r.Get of that kind and name fails (a timeout or
        an api error), whose error the source discards. */
  datatype Env = Env(
    helpers: Collaborators,
    title: string -> string,
    deployApi: Pulp -> Obj,
    keys: Keys,
    create: (Cluster, ResourceDefinition, Obj) -> StepOutcome,
    deepDerivative: (PvcSpec, PvcSpec) -> bool,
    update: (Cluster, Obj) -> Option<Error>,
    updateCRField: (Pulp, string, string) -> Option<Error>,
    reconcile: (Obj, Obj, string) -> StepOutcome,
    readFails: (Cluster, Kind, string) -> bool)

  /** `r.Get(ctx, name, &obj)` with its error discarded: a failed read, like
      a read of an absent object, leaves the zero object the caller
      allocated. */
  function Read(env: Env, c: Cluster, kind: Kind, name: string): (o: Obj)
    ensures KindOf(o) == kind
    ensures env.readFails(c, kind, name) || ObjKey(kind, name) !in c ==> o == Zero(kind)
    ensures !env.readFails(c, kind, name) && ObjKey(kind, name) in c && KindOf(c[ObjKey(kind, name)]) == kind ==>
              o == c[ObjKey(kind, name)]
  {
    if env.readFails(c, kind, name) then Zero(kind) else Get(c, kind, name)
  }

  /** The condition type the pass reports under. */
  function ConditionType(p: Pulp, env: Env): string {
    env.title(p.spec.deploymentType) + "-API-Ready"
  }

  /** Every condition the pass reports is an "-API-Ready" condition, named
      after the titled deployment type. */
  lemma ConditionTypeSuffix(p: Pulp, env: Env)
    ensures var ct := ConditionType(p, env);
            |ct| >= 10 && ct[|ct| - 10..] == "-API-Ready"
            && ct[..|ct| - 10] == env.title(p.spec.deploymentType)
  {
  }

  // ------------------------------------------------------------- resources

  function FileStorageDefinition(p: Pulp, ct: string): ResourceDefinition {
    ResourceDefinition(PersistentVolumeClaimKind, p.name + "-file-storage", "FileStorage", ct)
  }

  /** An entry of the list of api resources: its definition and the object
      its builder yields. */
  datatype ApiResource = ApiResource(definition: ResourceDefinition, built: Obj)

  /** A PersistentVolumeClaim object. */
  type Claim = o: Obj | o.PersistentVolumeClaim? witness Zero(PersistentVolumeClaimKind)

  /** The builder of the file-storage claim and those of the resources list
      (each entry's Function): the pass is stated for any builders, and
      `SourceBuilders` are the ones api.go wires in. */
  datatype Builders = Builders(
    claim: Pulp -> Claim,
    serverSecret: Pulp -> Obj,
    dbFieldsSecret: Pulp -> Obj,
    adminSecret: Pulp -> Obj,
    containerAuth: Pulp -> Obj,
    deployment: Pulp -> Obj,
    service: Pulp -> Obj)

  function SourceBuilders(env: Env): Builders {
    Builders(
      (q: Pulp) => FileStoragePVC(q),
      (q: Pulp) => PulpServerSecret(q, env.helpers),
      (q: Pulp) => DBFieldsEncryptionSecret(q, env.keys.fernetKey),
      (q: Pulp) => AdminPasswordSecret(q, env.keys.password),
      (q: Pulp) => ContainerAuthSecret(q, env.keys.privateKey, env.keys.publicKey),
      env.deployApi,
      (q: Pulp) => ServiceForAPI(q))
  }

  /** The six api resources, in the order the pass provisions them. */
  function ApiResources(p: Pulp, b: Builders, ct: string): (rs: seq<ApiResource>)
    ensures |rs| == 6
    ensures forall i :: 0 <= i < |rs| ==> rs[i].definition.conditionType == ct
    ensures forall i :: 0 <= i < |rs| ==> rs[i].definition.kind != PersistentVolumeClaimKind
  {
    [ ApiResource(ResourceDefinition(SecretKind, p.name + "-server", "Server", ct),
                  b.serverSecret(p)),
      ApiResource(ResourceDefinition(SecretKind, p.name + "-db-fields-encryption", "DBFieldsEncryption", ct),
                  b.dbFieldsSecret(p)),
      ApiResource(ResourceDefinition(SecretKind, AdminSecretName(p), "AdminPassword", ct),
                  b.adminSecret(p)),
      ApiResource(ResourceDefinition(SecretKind, p.spec.containerTokenSecret, "ContainerAuth", ct),
                  b.containerAuth(p)),
      ApiResource(ResourceDefinition(DeploymentKind, p.name + "-api", "Api", ct),
                  b.deployment(p)),
      ApiResource(ResourceDefinition(ServiceKind, p.name + "-api-svc", "Api", ct),
                  b.service(p)) ]
  }

  /** The names the resources list declares agree with the objects api.go's
      builders yield: the db-fields-encryption, container-auth and service
      objects carry their definition's name; the admin-password object does
      so iff no custom name of two or more characters is configured (or it
      equals the default). The server secret is `ServerSecretNamedIffReadable`'s
      matter, and the deployment's builder lies outside this model; the
      definitions do not depend on the builders wired into the list. */
  lemma BuiltObjectsNamedAsDefined(p: Pulp, env: Env, b: Builders, ct: string)
    ensures var rs := ApiResources(p, b, ct);
            && DBFieldsEncryptionSecret(p, env.keys.fernetKey).meta.name == rs[1].definition.name
            && ContainerAuthSecret(p, env.keys.privateKey, env.keys.publicKey).meta.name == rs[3].definition.name
            && ServiceForAPI(p).meta.name == rs[5].definition.name
            && (AdminPasswordSecret(p, env.keys.password).meta.name == rs[2].definition.name
                <==> (|p.spec.adminPasswordSecret| <= 1 || p.spec.adminPasswordSecret == p.name + "-admin-password"))
  {
    GeneratedSecretsNamesAndOwners(p, env.keys.fernetKey, env.keys.password, env.keys.privateKey, env.keys.publicKey);
  }

  /** The server secret carries the name its definition declares,
      <name>-server, iff its object-storage data can be read; otherwise it is
      the empty Secret. */
  lemma ServerSecretNamedIffReadable(p: Pulp, h: Collaborators)
    ensures PulpServerSecret(p, h).meta.name == p.name + "-server" <==> !ObjectStorageUnreadable(p, h)
  {
    if ObjectStorageUnreadable(p, h) {
      assert PulpServerSecret(p, h).meta.name == "";
    }
  }

  function CreateOutcome(env: Env, c: Cluster, r: ApiResource): StepOutcome {
    env.create(c, r.definition, r.built)
  }

  /** The index of the first resource from `from` on whose creation stops
      the pass, or |rs| when none does. */
  function FirstStop(rs: seq<ApiResource>, c: Cluster, env: Env, from: nat): (k: nat)
    requires from <= |rs|
    ensures from <= k <= |rs|
    ensures forall i :: from <= i < k ==> !Stops(CreateOutcome(env, c, rs[i]))
    ensures k < |rs| ==> Stops(CreateOutcome(env, c, rs[k]))
    decreases |rs| - from
  {
    if from == |rs| then from
    else if Stops(CreateOutcome(env, c, rs[from])) then from
    else FirstStop(rs, c, env, from + 1)
  }

  /** The creation attempts for the first n resources, in order. */
  function Attempted(rs: seq<ApiResource>, n: nat): (effects: seq<Effect>)
    requires n <= |rs|
    ensures |effects| == n
    ensures forall i :: 0 <= i < n ==> effects[i] == CreateAttempted(rs[i].definition)
  {
    seq(n, i requires 0 <= i < n => CreateAttempted(rs[i].definition))
  }

  // ------------------------------------------------------------------ pass

  /** What a phase of the pass did: whether the pass returned there, what it
      returned, the descriptor and cluster afterwards, and the effects of
      the phase. */
  datatype Step = Step(stopped: bool, result: ReconcileResult, err: Option<Error>,
                       pulp: Pulp, cluster: Cluster, effects: seq<Effect>)

  /** The phase, or the pass, returned neither a requeue nor an error. */
  predicate Clean(s: Step) {
    s.result == Done && s.err.None?
  }

  /** A phase that returns nothing and leaves everything as it was. */
  function Skip(p: Pulp, c: Cluster): Step {
    Step(false, Done, None, p, c, [])
  }

  /** Phase b run after phase a: b's outcome and state, a's effects then b's. */
  function Then(a: Step, b: Step): Step {
    b.(effects := a.effects + b.effects)
  }

  /** The file-storage claim: created, then its spec checked and updated,
      only when the storage-class backend is chosen. */
  function FileStoragePhase(p: Pulp, c: Cluster, env: Env, b: Builders, ct: string): (r: Step)
    ensures r.pulp == p
    ensures r.stopped <==> !Clean(r)
    ensures r.cluster == c || (StorageClassProvided(env.helpers, p) && r.stopped && r.result == ReconcileResult(true, 1)
                               && r.err.None? && r.cluster == c[ObjKey(PersistentVolumeClaimKind, b.claim(p).meta.name) := b.claim(p)])
  {
    if !StorageClassProvided(env.helpers, p) then Skip(p, c)
    else
      var def := FileStorageDefinition(p, ct);
      var expected := b.claim(p);
      var created := env.create(c, def, expected);
      var e0 := [CreateAttempted(def)];
      if created.err.Some? then Step(true, Done, created.err, p, c, e0)
      else if created.requeue then Step(true, ReconcileResult(true, 0), None, p, c, e0)
      else
        var found := Read(env, c, PersistentVolumeClaimKind, def.name);
        if env.deepDerivative(expected.pvcSpec, found.pvcSpec) then Step(false, Done, None, p, c, e0)
        else
          var e1 := e0 + [StatusUpdated(false, ct, "UpdatingFileStoragePVC", "Reconciling " + def.name + " PVC resource"),
                          EventEmitted(Normal, "Updating", "Reconciling file storage PVC"),
                          UpdateAttempted(expected)];
          var failed := env.update(c, expected);
          if failed.Some? then
            Step(true, Done, failed, p, c,
                 e1 + [StatusUpdated(false, ct, "ErrorUpdatingFileStoragePVC", "Failed to reconcile " + def.name + " PVC resource"),
                       EventEmitted(Warning, "Failed", "Failed to reconcile file storage PVC")])
          else
            Step(true, ReconcileResult(true, 1), None, p,
                 c[ObjKey(PersistentVolumeClaimKind, expected.meta.name) := expected],
                 e1 + [EventEmitted(Normal, "Updated", "File storage PVC reconciled")])
  }

  /** Defaults ContainerTokenSecret to <name>-container-auth when it is empty. */
  function ContainerTokenDefault(p: Pulp, c: Cluster): (r: Step)
    ensures !r.stopped && Clean(r) && r.cluster == c
    ensures r.pulp == p.(spec := p.spec.(containerTokenSecret := r.pulp.spec.containerTokenSecret))
    ensures |p.spec.containerTokenSecret| > 0 ==> r.pulp == p
    ensures |p.spec.containerTokenSecret| == 0 ==> r.pulp.spec.containerTokenSecret == p.name + "-container-auth"
  {
    if |p.spec.containerTokenSecret| == 0 then
      var v := p.name + "-container-auth";
      Step(false, Done, None, p.(spec := p.spec.(containerTokenSecret := v)), c, [Patched("ContainerTokenSecret", v)])
    else Skip(p, c)
  }

  /** Defaults DBFieldsEncryptionSecret to <name>-db-fields-encryption when it is empty. */
  function DbFieldsDefault(p: Pulp, c: Cluster): (r: Step)
    ensures !r.stopped && Clean(r) && r.cluster == c
    ensures r.pulp == p.(spec := p.spec.(dbFieldsEncryptionSecret := r.pulp.spec.dbFieldsEncryptionSecret))
    ensures |p.spec.dbFieldsEncryptionSecret| > 0 ==> r.pulp == p
    ensures |p.spec.dbFieldsEncryptionSecret| == 0 ==> r.pulp.spec.dbFieldsEncryptionSecret == p.name + "-db-fields-encryption"
  {
    if |p.spec.dbFieldsEncryptionSecret| == 0 then
      var v := p.name + "-db-fields-encryption";
      Step(false, Done, None, p.(spec := p.spec.(dbFieldsEncryptionSecret := v)), c, [Patched("DBFieldsEncryptionSecret", v)])
    else Skip(p, c)
  }

  /** Creates the six api resources in order, returning at the first one
      that fails or asks for a requeue. */
  function CreatePhase(p: Pulp, c: Cluster, env: Env, b: Builders, ct: string): (r: Step)
    ensures r.pulp == p && r.cluster == c
    ensures r.stopped <==> !Clean(r)
    ensures !r.stopped <==> forall i :: 0 <= i < 6 ==> !Stops(CreateOutcome(env, c, ApiResources(p, b, ct)[i]))
  {
    var rs := ApiResources(p, b, ct);
    var k := FirstStop(rs, c, env, 0);
    if k < |rs| then
      var o := CreateOutcome(env, c, rs[k]);
      Step(true, if o.err.Some? then Done else ReconcileResult(true, 0), o.err, p, c, Attempted(rs, k + 1))
    else Step(false, Done, None, p, c, Attempted(rs, |rs|))
  }

  /** updateCRField(AdminPasswordSecret, <name>-admin-password). */
  function AdminFieldPhase(p: Pulp, c: Cluster, env: Env): (r: Step)
    ensures r.pulp == p && r.cluster == c
    ensures r.stopped <==> !Clean(r)
    ensures r.stopped <==> env.updateCRField(p, "AdminPasswordSecret", p.name + "-admin-password").Some?
    ensures r.err == env.updateCRField(p, "AdminPasswordSecret", p.name + "-admin-password") && r.result == Done
  {
    var v := p.name + "-admin-password";
    var failed := env.updateCRField(p, "AdminPasswordSecret", v);
    Step(failed.Some?, Done, failed, p, c, [CRFieldUpdateAttempted("AdminPasswordSecret", v)])
  }

  /** Reads the object of that kind and name, reconciles it with the
      expected one and returns when that fails or asks for a requeue, after
      the effects `onStop`. */
  function DriftPhase(p: Pulp, c: Cluster, env: Env, ct: string, kind: Kind, name: string, expected: Obj,
                      onStop: seq<Effect>): (r: Step)
    ensures r.pulp == p && r.cluster == c
    ensures r.stopped <==> !Clean(r)
    ensures r.stopped <==> Stops(env.reconcile(expected, Read(env, c, kind, name), ct))
    ensures var o := env.reconcile(expected, Read(env, c, kind, name), ct);
            r.stopped ==> r.result == ReconcileResult(o.requeue, 0) && r.err == o.err
  {
    var found := Read(env, c, kind, name);
    var o := env.reconcile(expected, found, ct);
    if Stops(o) then Step(true, ReconcileResult(o.requeue, 0), o.err, p, c, [DriftChecked(expected, found)] + onStop)
    else Step(false, Done, None, p, c, [DriftChecked(expected, found)])
  }

  /** The restarts of the api and content deployments after the server
      secret drifted. */
  function Restart(p: Pulp, c: Cluster, env: Env): seq<Effect> {
    [PodsRestarted(Read(env, c, DeploymentKind, p.name + "-api")),
     PodsRestarted(Read(env, c, DeploymentKind, p.name + "-content"))]
  }

  /** The provisioning half of the pass: the file-storage claim, the
      ContainerTokenSecret default and the creation of the six resources. */
  function ProvisionPhase(p: Pulp, c: Cluster, env: Env, b: Builders, ct: string): (r: Step)
    ensures r.stopped <==> !Clean(r)
    ensures r.pulp.name == p.name
  {
    var s1 := FileStoragePhase(p, c, env, b, ct);
    if s1.stopped then s1 else
    var s2 := Then(s1, ContainerTokenDefault(s1.pulp, s1.cluster));
    Then(s2, CreatePhase(s2.pulp, s2.cluster, env, b, ct))
  }

  /** The checks before the server secret's: the AdminPasswordSecret field,
      the api deployment, the DBFieldsEncryptionSecret default and the api
      service. */
  function ChecksBeforeSecret(p: Pulp, c: Cluster, env: Env, b: Builders, ct: string): Step {
    var s4 := AdminFieldPhase(p, c, env);
    if s4.stopped then s4 else
    var s5 := Then(s4, DriftPhase(p, c, env, ct, DeploymentKind, p.name + "-api", b.deployment(p), []));
    if s5.stopped then s5 else
    var s6 := Then(s5, DbFieldsDefault(s5.pulp, s5.cluster));
    Then(s6, DriftPhase(s6.pulp, s6.cluster, env, ct, ServiceKind, p.name + "-api-svc", b.service(s6.pulp), []))
  }

  /** The server-secret check, which restarts the api and content pods when
      it fails or asks for a requeue. */
  function ServerSecretPhase(p: Pulp, c: Cluster, env: Env, b: Builders, ct: string): Step {
    DriftPhase(p, c, env, ct, SecretKind, p.name + "-server", b.serverSecret(p), Restart(p, c, env))
  }

  /** The checking half of the pass. */
  function ChecksPhase(p: Pulp, c: Cluster, env: Env, b: Builders, ct: string): (r: Step)
    ensures r.stopped <==> !Clean(r)
    ensures r.pulp.name == p.name && r.cluster == c
  {
    var s := ChecksBeforeSecret(p, c, env, b, ct);
    if s.stopped then s else Then(s, ServerSecretPhase(s.pulp, s.cluster, env, b, ct))
  }

  /** The pass with builders b. */
  function Pass(p: Pulp, c: Cluster, env: Env, b: Builders): (r: Step)
    ensures r.stopped <==> !Clean(r)
    ensures r.pulp.name == p.name && r.pulp.namespace == p.namespace
  {
    var ct := ConditionType(p, env);
    var s := ProvisionPhase(p, c, env, b, ct);
    if s.stopped then s else Then(s, ChecksPhase(s.pulp, s.cluster, env, b, ct))
  }

  /** pulpApiController: the pass with the builders of api.go. */
  function ApiPass(p: Pulp, c: Cluster, env: Env): Step {
    Pass(p, c, env, SourceBuilders(env))
  }

  /** The pass up to, and not including, the server-secret check. */
  function BeforeServerSecret(p: Pulp, c: Cluster, env: Env, b: Builders): Step {
    var ct := ConditionType(p, env);
    var s := ProvisionPhase(p, c, env, b, ct);
    if s.stopped then s else Then(s, ChecksBeforeSecret(s.pulp, s.cluster, env, b, ct))
  }

  // --------------------------------------------------------------- effects

  /** The definitions whose creation was attempted, in order. */
  function Attempts(effects: seq<Effect>): seq<ResourceDefinition> {
    if effects == [] then []
    else (if effects[0].CreateAttempted? then [effects[0].definition] else []) + Attempts(effects[1..])
  }

  /** The deployments whose pods were restarted, in order. */
  function Restarts(effects: seq<Effect>): seq<Obj> {
    if effects == [] then []
    else (if effects[0].PodsRestarted? then [effects[0].deployment] else []) + Restarts(effects[1..])
  }

  predicate NoCreates(effects: seq<Effect>) {
    forall i :: 0 <= i < |effects| ==> !effects[i].CreateAttempted?
  }

  predicate NoRestarts(effects: seq<Effect>) {
    forall i :: 0 <= i < |effects| ==> !effects[i].PodsRestarted?
  }

  /** The definitions of the first n resources. */
  function Definitions(rs: seq<ApiResource>, n: nat): (defs: seq<ResourceDefinition>)
    requires n <= |rs|
    ensures |defs| == n && forall i :: 0 <= i < n ==> defs[i] == rs[i].definition
  {
    seq(n, i requires 0 <= i < n => rs[i].definition)
  }

  lemma {:induction false} AttemptsAppend(a: seq<Effect>, b: seq<Effect>)
    ensures Attempts(a + b) == Attempts(a) + Attempts(b)
    decreases |a|
  {
    if a == [] {
      assert a + b == b;
    } else {
      assert (a + b)[0] == a[0] && (a + b)[1..] == a[1..] + b;
      AttemptsAppend(a[1..], b);
    }
  }

  lemma {:induction false} RestartsAppend(a: seq<Effect>, b: seq<Effect>)
    ensures Restarts(a + b) == Restarts(a) + Restarts(b)
    decreases |a|
  {
    if a == [] {
      assert a + b == b;
    } else {
      assert (a + b)[0] == a[0] && (a + b)[1..] == a[1..] + b;
      RestartsAppend(a[1..], b);
    }
  }

  lemma {:induction false} AttemptsNone(effects: seq<Effect>)
    requires NoCreates(effects)
    ensures Attempts(effects) == []
    decreases |effects|
  {
    if effects != [] {
      AttemptsNone(effects[1..]);
    }
  }

  lemma {:induction false} RestartsNone(effects: seq<Effect>)
    requires NoRestarts(effects)
    ensures Restarts(effects) == []
    decreases |effects|
  {
    if effects != [] {
      RestartsNone(effects[1..]);
    }
  }

  /** The attempts recorded for the first n resources are their definitions. */
  lemma {:induction false} AttemptsOfAttempted(rs: seq<ApiResource>, n: nat)
    requires n <= |rs|
    ensures Attempts(Attempted(rs, n)) == Definitions(rs, n)
    ensures NoRestarts(Attempted(rs, n))
    decreases n
  {
    if n > 0 {
      var last := CreateAttempted(rs[n - 1].definition);
      assert Attempted(rs, n) == Attempted(rs, n - 1) + [last];
      AttemptsAppend(Attempted(rs, n - 1), [last]);
      AttemptsOfAttempted(rs, n - 1);
      assert Attempts([last]) == [rs[n - 1].definition] + Attempts([last][1..]);
      assert [last][1..] == [];
      assert Definitions(rs, n) == Definitions(rs, n - 1) + [rs[n - 1].definition];
    }
  }

  // ------------------------------------------------------ effects per phase

  lemma FileStorageEffects(p: Pulp, c: Cluster, env: Env, b: Builders, ct: string)
    ensures var r := FileStoragePhase(p, c, env, b, ct);
            && NoRestarts(r.effects)
            && Attempts(r.effects) == (if StorageClassProvided(env.helpers, p) then [FileStorageDefinition(p, ct)] else [])
  {
    var r := FileStoragePhase(p, c, env, b, ct);
    if StorageClassProvided(env.helpers, p) {
      var def := FileStorageDefinition(p, ct);
      assert |r.effects| > 0 && r.effects[0] == CreateAttempted(def);
      assert NoCreates(r.effects[1..]) && NoRestarts(r.effects[1..]);
      AttemptsNone(r.effects[1..]);
      assert Attempts(r.effects) == [def] + Attempts(r.effects[1..]);
    }
  }

  /** The number of resources the create loop attempts. */
  function AttemptCount(p: Pulp, c: Cluster, env: Env, b: Builders, ct: string): nat {
    var k := FirstStop(ApiResources(p, b, ct), c, env, 0);
    if k < 6 then k + 1 else 6
  }

  lemma CreateEffects(p: Pulp, c: Cluster, env: Env, b: Builders, ct: string)
    ensures AttemptCount(p, c, env, b, ct) <= 6
    ensures NoRestarts(CreatePhase(p, c, env, b, ct).effects)
    ensures Attempts(CreatePhase(p, c, env, b, ct).effects)
            == Definitions(ApiResources(p, b, ct), AttemptCount(p, c, env, b, ct))
  {
    var rs := ApiResources(p, b, ct);
    var n := AttemptCount(p, c, env, b, ct);
    assert CreatePhase(p, c, env, b, ct).effects == Attempted(rs, n);
    AttemptsOfAttempted(rs, n);
  }

  lemma ProvisionEffects(p: Pulp, c: Cluster, env: Env, b: Builders, ct: string)
    ensures var s1 := FileStoragePhase(p, c, env, b, ct);
            var p1 := ContainerTokenDefault(p, c).pulp;
            var r := ProvisionPhase(p, c, env, b, ct);
            && AttemptCount(p1, c, env, b, ct) <= 6
            && Restarts(r.effects) == []
            && Attempts(r.effects) == Attempts(s1.effects)
                                      + (if s1.stopped then [] else Definitions(ApiResources(p1, b, ct), AttemptCount(p1, c, env, b, ct)))
  {
    var s1 := FileStoragePhase(p, c, env, b, ct);
    FileStorageEffects(p, c, env, b, ct);
    RestartsNone(s1.effects);
    var d := ContainerTokenDefault(p, c);
    var cr := CreatePhase(d.pulp, c, env, b, ct);
    CreateEffects(d.pulp, c, env, b, ct);
    RestartsNone(cr.effects);
    if s1.stopped {
      assert ProvisionPhase(p, c, env, b, ct) == s1;
    } else {
      assert s1.pulp == p && s1.cluster == c;
      var s2 := Then(s1, d);
      assert NoCreates(d.effects) && NoRestarts(d.effects);
      AttemptsNone(d.effects);
      RestartsNone(d.effects);
      AttemptsAppend(s1.effects, d.effects);
      RestartsAppend(s1.effects, d.effects);
      AttemptsAppend(s2.effects, cr.effects);
      RestartsAppend(s2.effects, cr.effects);
      assert ProvisionPhase(p, c, env, b, ct) == Then(s2, cr);
      var defs := Definitions(ApiResources(d.pulp, b, ct), AttemptCount(d.pulp, c, env, b, ct));
      calc {
        Attempts(Then(s2, cr).effects);
        Attempts(s2.effects + cr.effects);
        Attempts(s2.effects) + Attempts(cr.effects);
        Attempts(s1.effects) + Attempts(d.effects) + defs;
        { assert Attempts(s1.effects) + [] == Attempts(s1.effects); }
        Attempts(s1.effects) + defs;
      }
    }
  }

  lemma DriftEffects(p: Pulp, c: Cluster, env: Env, ct: string, kind: Kind, name: string, expected: Obj)
    ensures NoCreates(DriftPhase(p, c, env, ct, kind, name, expected, []).effects)
    ensures NoRestarts(DriftPhase(p, c, env, ct, kind, name, expected, []).effects)
  {
  }

  lemma ChecksEffects(p: Pulp, c: Cluster, env: Env, b: Builders, ct: string)
    ensures NoCreates(ChecksBeforeSecret(p, c, env, b, ct).effects)
    ensures NoRestarts(ChecksBeforeSecret(p, c, env, b, ct).effects)
    ensures NoCreates(ChecksPhase(p, c, env, b, ct).effects)
  {
    var bs := ChecksBeforeSecret(p, c, env, b, ct);
    DriftEffects(p, c, env, ct, DeploymentKind, p.name + "-api", b.deployment(p));
    var s5 := Then(AdminFieldPhase(p, c, env), DriftPhase(p, c, env, ct, DeploymentKind, p.name + "-api", b.deployment(p), []));
    var s6 := Then(s5, DbFieldsDefault(s5.pulp, s5.cluster));
    DriftEffects(s6.pulp, s6.cluster, env, ct, ServiceKind, p.name + "-api-svc", b.service(s6.pulp));
    if !bs.stopped {
      var sc := ServerSecretPhase(bs.pulp, bs.cluster, env, b, ct);
      assert NoCreates(sc.effects);
    }
  }

  // -------------------------------------------------------- pass properties

  /** The pass is the checks up to the server secret's, then that check. */
  lemma PassSplitsAtServerSecret(p: Pulp, c: Cluster, env: Env, b: Builders)
    ensures var bs := BeforeServerSecret(p, c, env, b);
            Pass(p, c, env, b)
            == if bs.stopped then bs else Then(bs, ServerSecretPhase(bs.pulp, bs.cluster, env, b, ConditionType(p, env)))
  {
    var ct := ConditionType(p, env);
    var s := ProvisionPhase(p, c, env, b, ct);
    if !s.stopped {
      var cb := ChecksBeforeSecret(s.pulp, s.cluster, env, b, ct);
      if !cb.stopped {
        var sc := ServerSecretPhase(cb.pulp, cb.cluster, env, b, ct);
        AppendAssoc(s.effects, cb.effects, sc.effects);
      }
    }
  }

  /** Past the provisioning half, the descriptor and the cluster it left
      are the ones the checks see, and the checks change neither the
      cluster nor anything of the descriptor but DBFieldsEncryptionSecret. */
  lemma ChecksState(p: Pulp, c: Cluster, env: Env, b: Builders, ct: string)
    ensures var r := ChecksPhase(p, c, env, b, ct);
            && r.cluster == c
            && r.pulp == p.(spec := p.spec.(dbFieldsEncryptionSecret := r.pulp.spec.dbFieldsEncryptionSecret))
            && (r.pulp.spec.dbFieldsEncryptionSecret == p.spec.dbFieldsEncryptionSecret
                || (|p.spec.dbFieldsEncryptionSecret| == 0 && r.pulp.spec.dbFieldsEncryptionSecret == p.name + "-db-fields-encryption"))
            && (r.stopped <==> !Clean(r))
            && (!r.stopped ==> r.pulp.spec.dbFieldsEncryptionSecret
                                 == (if |p.spec.dbFieldsEncryptionSecret| == 0 then p.name + "-db-fields-encryption"
                                     else p.spec.dbFieldsEncryptionSecret))
  {
  }

  /** Only the claim step writes to the cluster: the claim is attempted,
      first and once, exactly when the storage-class backend is chosen, and
      the cluster changes only by the claim update, which ends the pass with
      a one-second requeue. */
  lemma FileStorageGate(p: Pulp, c: Cluster, env: Env, b: Builders)
    ensures var o := Pass(p, c, env, b);
            var a := Attempts(o.effects);
            && ((|a| > 0 && a[0].kind == PersistentVolumeClaimKind) <==> StorageClassProvided(env.helpers, p))
            && (forall i :: 0 < i < |a| ==> a[i].kind != PersistentVolumeClaimKind)
            && (o.cluster == c
                || (StorageClassProvided(env.helpers, p) && o.result == ReconcileResult(true, 1) && o.err.None?
                    && o.cluster == c[ObjKey(PersistentVolumeClaimKind, b.claim(p).meta.name) := b.claim(p)]))
  {
    FileStorageAttempts(p, c, env, b);
    PassClusterIsClaims(p, c, env, b);
  }

  /** Where the claim step stops the pass, the pass is that step. */
  lemma PassStopsAtClaim(p: Pulp, c: Cluster, env: Env, b: Builders)
    ensures var s1 := FileStoragePhase(p, c, env, b, ConditionType(p, env));
            s1.stopped ==> Pass(p, c, env, b) == s1
  {
    var ct := ConditionType(p, env);
    if FileStoragePhase(p, c, env, b, ct).stopped {
      assert ProvisionPhase(p, c, env, b, ct) == FileStoragePhase(p, c, env, b, ct);
    }
  }

  /** The pass leaves the cluster as the claim step left it. */
  lemma PassClusterIsClaims(p: Pulp, c: Cluster, env: Env, b: Builders)
    ensures var s1 := FileStoragePhase(p, c, env, b, ConditionType(p, env));
            && Pass(p, c, env, b).cluster == s1.cluster
            && (s1.cluster != c ==> Pass(p, c, env, b) == s1)
  {
    var ct := ConditionType(p, env);
    var s1 := FileStoragePhase(p, c, env, b, ct);
    PassStopsAtClaim(p, c, env, b);
    if !s1.stopped {
      var s := ProvisionPhase(p, c, env, b, ct);
      var d := ContainerTokenDefault(p, c);
      assert s == Then(Then(s1, d), CreatePhase(d.pulp, c, env, b, ct));
      assert s.cluster == c;
      if !s.stopped {
        assert Pass(p, c, env, b) == Then(s, ChecksPhase(s.pulp, c, env, b, ct));
      }
    }
  }

  /** The checks attempt no creation: the attempts of the pass are those
      of its provisioning half, which is the whole pass when it returns. */
  lemma PassAttemptsAreProvisions(p: Pulp, c: Cluster, env: Env, b: Builders)
    ensures var s := ProvisionPhase(p, c, env, b, ConditionType(p, env));
            && Attempts(Pass(p, c, env, b).effects) == Attempts(s.effects)
            && (s.stopped ==> Pass(p, c, env, b) == s)
  {
    var ct := ConditionType(p, env);
    var s := ProvisionPhase(p, c, env, b, ct);
    if !s.stopped {
      var ch := ChecksPhase(s.pulp, s.cluster, env, b, ct);
      ChecksEffects(s.pulp, s.cluster, env, b, ct);
      AttemptsNone(ch.effects);
      AttemptsAppend(s.effects, ch.effects);
      assert Pass(p, c, env, b) == Then(s, ch);
      assert Attempts(s.effects) + [] == Attempts(s.effects);
    }
  }

  /** The attempts of the pass: the claim first, when it is attempted, and
      no other claim. */
  lemma FileStorageAttempts(p: Pulp, c: Cluster, env: Env, b: Builders)
    ensures var a := Attempts(Pass(p, c, env, b).effects);
            && ((|a| > 0 && a[0].kind == PersistentVolumeClaimKind) <==> StorageClassProvided(env.helpers, p))
            && (forall i :: 0 < i < |a| ==> a[i].kind != PersistentVolumeClaimKind)
  {
    var ct := ConditionType(p, env);
    var s1 := FileStoragePhase(p, c, env, b, ct);
    var p1 := ContainerTokenDefault(p, c).pulp;
    PassAttemptsAreProvisions(p, c, env, b);
    ProvisionEffects(p, c, env, b, ct);
    FileStorageEffects(p, c, env, b, ct);
    var tail := if s1.stopped then [] else Definitions(ApiResources(p1, b, ct), AttemptCount(p1, c, env, b, ct));
    assert forall i :: 0 <= i < |tail| ==> tail[i].kind != PersistentVolumeClaimKind;
    assert Attempts(Pass(p, c, env, b).effects) == Attempts(s1.effects) + tail;
  }

  /** The claim step's outcomes under the storage-class backend: a failed
      or requeued create returns at once; a drifted claim is updated, and a
      successful update requeues after one second while a failed one sets
      ErrorUpdatingFileStoragePVC and returns the error with an empty
      result; a claim step that returns ends the pass. */
  lemma FileStorageOutcomes(p: Pulp, c: Cluster, env: Env, b: Builders)
    requires StorageClassProvided(env.helpers, p)
    ensures var ct := ConditionType(p, env);
            var def := FileStorageDefinition(p, ct);
            var expected := b.claim(p);
            var created := env.create(c, def, expected);
            var found := Read(env, c, PersistentVolumeClaimKind, p.name + "-file-storage");
            var failed := env.update(c, expected);
            var r := FileStoragePhase(p, c, env, b, ct);
            var updating := [CreateAttempted(def),
                             StatusUpdated(false, ct, "UpdatingFileStoragePVC", "Reconciling " + def.name + " PVC resource"),
                             EventEmitted(Normal, "Updating", "Reconciling file storage PVC"),
                             UpdateAttempted(expected)];
            && (r.stopped ==> Pass(p, c, env, b) == r)
            && (created.err.Some? ==> r == Step(true, Done, created.err, p, c, [CreateAttempted(def)]))
            && (created.err.None? && created.requeue ==>
                  r == Step(true, ReconcileResult(true, 0), None, p, c, [CreateAttempted(def)]))
            && (!Stops(created) && env.deepDerivative(expected.pvcSpec, found.pvcSpec) ==>
                  r == Step(false, Done, None, p, c, [CreateAttempted(def)]))
            && (!Stops(created) && !env.deepDerivative(expected.pvcSpec, found.pvcSpec) && failed.None? ==>
                  r == Step(true, ReconcileResult(true, 1), None, p,
                            c[ObjKey(PersistentVolumeClaimKind, expected.meta.name) := expected],
                            updating + [EventEmitted(Normal, "Updated", "File storage PVC reconciled")]))
            && (!Stops(created) && !env.deepDerivative(expected.pvcSpec, found.pvcSpec) && failed.Some? ==>
                  r == Step(true, Done, failed, p, c,
                            updating + [StatusUpdated(false, ct, "ErrorUpdatingFileStoragePVC",
                                                      "Failed to reconcile " + def.name + " PVC resource"),
                                        EventEmitted(Warning, "Failed", "Failed to reconcile file storage PVC")]))
  {
    PassStopsAtClaim(p, c, env, b);
  }

  /** The requeue-after delay is set only by a successful claim update. */
  lemma RequeueAfterOnlyFromClaimUpdate(p: Pulp, c: Cluster, env: Env, b: Builders)
    ensures var o := Pass(p, c, env, b);
            o.result.requeueAfterSeconds != 0 ==>
              && StorageClassProvided(env.helpers, p)
              && o.result == ReconcileResult(true, 1) && o.err.None?
              && o.cluster == c[ObjKey(PersistentVolumeClaimKind, b.claim(p).meta.name) := b.claim(p)]
  {
    var ct := ConditionType(p, env);
    var s := ProvisionPhase(p, c, env, b, ct);
    if !s.stopped {
      var ch := ChecksPhase(s.pulp, s.cluster, env, b, ct);
      ChecksState(s.pulp, s.cluster, env, b, ct);
      assert Pass(p, c, env, b).result == ch.result;
    }
  }

  /** The six resources, in the order they are provisioned. */
  lemma ResourceOrder(p: Pulp, b: Builders, ct: string)
    ensures Definitions(ApiResources(p, b, ct), 6)
            == [ResourceDefinition(SecretKind, p.name + "-server", "Server", ct),
                ResourceDefinition(SecretKind, p.name + "-db-fields-encryption", "DBFieldsEncryption", ct),
                ResourceDefinition(SecretKind, AdminSecretName(p), "AdminPassword", ct),
                ResourceDefinition(SecretKind, p.spec.containerTokenSecret, "ContainerAuth", ct),
                ResourceDefinition(DeploymentKind, p.name + "-api", "Api", ct),
                ResourceDefinition(ServiceKind, p.name + "-api-svc", "Api", ct)]
  {
  }

  /** Past the claim step the resources are attempted in their fixed order,
      up to and including the first whose creation fails or asks for a
      requeue; that one decides the outcome and is the pass's last effect. */
  lemma CreateOrderAndShortCircuit(p: Pulp, c: Cluster, env: Env, b: Builders)
    requires !FileStoragePhase(p, c, env, b, ConditionType(p, env)).stopped
    ensures var ct := ConditionType(p, env);
            var o := Pass(p, c, env, b);
            var p1 := ContainerTokenDefault(p, c).pulp;
            var rs := ApiResources(p1, b, ct);
            var k := FirstStop(rs, c, env, 0);
            var claim := if StorageClassProvided(env.helpers, p) then [FileStorageDefinition(p, ct)] else [];
            && Attempts(o.effects) == claim + Definitions(rs, if k < 6 then k + 1 else 6)
            && (k < 6 ==>
                  var out := CreateOutcome(env, c, rs[k]);
                  && o.err == out.err
                  && o.result == (if out.err.Some? then Done else ReconcileResult(true, 0))
                  && o.effects[|o.effects| - 1] == CreateAttempted(rs[k].definition))
  {
    var ct := ConditionType(p, env);
    var s := ProvisionPhase(p, c, env, b, ct);
    PassAttemptsAreProvisions(p, c, env, b);
    ProvisionEffects(p, c, env, b, ct);
    FileStorageEffects(p, c, env, b, ct);
    var s1 := FileStoragePhase(p, c, env, b, ct);
    var d := ContainerTokenDefault(p, c);
    var rs := ApiResources(d.pulp, b, ct);
    var k := FirstStop(rs, c, env, 0);
    var cr := CreatePhase(d.pulp, c, env, b, ct);
    assert s == Then(Then(s1, d), cr);
    if k < 6 {
      assert cr.effects == Attempted(rs, k + 1);
      assert s.effects[|s.effects| - 1] == cr.effects[|cr.effects| - 1];
    }
  }

  /** Defaulting never overwrites: ContainerTokenSecret and
      DBFieldsEncryptionSecret change only from empty to their defaults,
      nothing else of the descriptor changes, and a clean pass has applied
      both defaults. */
  lemma DefaultsNeverOverwrite(p: Pulp, c: Cluster, env: Env, b: Builders)
    ensures var o := Pass(p, c, env, b);
            && o.pulp == p.(spec := p.spec.(containerTokenSecret := o.pulp.spec.containerTokenSecret,
                                           dbFieldsEncryptionSecret := o.pulp.spec.dbFieldsEncryptionSecret))
            && (o.pulp.spec.containerTokenSecret == p.spec.containerTokenSecret
                || (|p.spec.containerTokenSecret| == 0 && o.pulp.spec.containerTokenSecret == p.name + "-container-auth"))
            && (o.pulp.spec.dbFieldsEncryptionSecret == p.spec.dbFieldsEncryptionSecret
                || (|p.spec.dbFieldsEncryptionSecret| == 0
                    && o.pulp.spec.dbFieldsEncryptionSecret == p.name + "-db-fields-encryption"))
            && (Clean(o) ==>
                  && o.pulp.spec.containerTokenSecret
                     == (if |p.spec.containerTokenSecret| == 0 then p.name + "-container-auth" else p.spec.containerTokenSecret)
                  && o.pulp.spec.dbFieldsEncryptionSecret
                     == (if |p.spec.dbFieldsEncryptionSecret| == 0 then p.name + "-db-fields-encryption"
                         else p.spec.dbFieldsEncryptionSecret))
  {
    var ct := ConditionType(p, env);
    var s := ProvisionPhase(p, c, env, b, ct);
    var s1 := FileStoragePhase(p, c, env, b, ct);
    if s1.stopped {
      assert Pass(p, c, env, b) == s1;
    } else {
      var d := ContainerTokenDefault(p, c);
      assert s.pulp == d.pulp;
      if !s.stopped {
        ChecksState(s.pulp, s.cluster, env, b, ct);
      }
    }
  }

  lemma RestartsOfRestart(p: Pulp, c: Cluster, env: Env)
    ensures Restarts(Restart(p, c, env))
            == [Read(env, c, DeploymentKind, p.name + "-api"), Read(env, c, DeploymentKind, p.name + "-content")]
  {
    var rp := Restart(p, c, env);
    assert rp[1..] == [rp[1]] && rp[1..][1..] == [];
    assert Restarts(rp[1..][1..]) == [];
    assert Restarts(rp[1..]) == [rp[1].deployment];
  }

  /** Pods are restarted only by a server-secret check that fails or asks
      for a requeue, after every earlier step went through; the api and
      content deployments of the cluster the pass started from are then
      restarted, in that order, and the pass returns what that check
      returned. */
  lemma RestartScope(p: Pulp, c: Cluster, env: Env, b: Builders)
    ensures var ct := ConditionType(p, env);
            var bs := BeforeServerSecret(p, c, env, b);
            var o := Pass(p, c, env, b);
            var out := env.reconcile(b.serverSecret(bs.pulp), Read(env, c, SecretKind, p.name + "-server"), ct);
            && (Restarts(o.effects) != [] <==> !bs.stopped && Stops(out))
            && (Restarts(o.effects) != [] ==>
                  && Restarts(o.effects) == [Read(env, c, DeploymentKind, p.name + "-api"), Read(env, c, DeploymentKind, p.name + "-content")]
                  && o.effects[|o.effects| - 2..] == Restart(p, c, env)
                  && o.result == ReconcileResult(out.requeue, 0) && o.err == out.err)
  {
    var ct := ConditionType(p, env);
    var bs := BeforeServerSecret(p, c, env, b);
    var o := Pass(p, c, env, b);
    PassSplitsAtServerSecret(p, c, env, b);
    NoRestartsBeforeServerSecret(p, c, env, b);
    if !bs.stopped {
      var sc := ServerSecretPhase(bs.pulp, bs.cluster, env, b, ct);
      RestartsAppend(bs.effects, sc.effects);
      var checked := [DriftChecked(b.serverSecret(bs.pulp), Read(env, c, SecretKind, p.name + "-server"))];
      assert Restarts(checked) == [];
      if sc.stopped {
        var rp := Restart(p, c, env);
        assert sc.effects == checked + rp;
        RestartsAppend(checked, rp);
        RestartsOfRestart(p, c, env);
        assert o.effects[|o.effects| - 2..] == rp;
      } else {
        assert sc.effects == checked;
      }
    }
  }

  /** No pods are restarted before the server-secret check, and when the
      pass reaches that check the cluster is the one it started from. */
  lemma NoRestartsBeforeServerSecret(p: Pulp, c: Cluster, env: Env, b: Builders)
    ensures var bs := BeforeServerSecret(p, c, env, b);
            && Restarts(bs.effects) == []
            && (!bs.stopped ==> bs.cluster == c && bs.pulp.name == p.name)
  {
    var ct := ConditionType(p, env);
    var s := ProvisionPhase(p, c, env, b, ct);
    ProvisionEffects(p, c, env, b, ct);
    if !s.stopped {
      var cb := ChecksBeforeSecret(s.pulp, s.cluster, env, b, ct);
      ChecksEffects(s.pulp, s.cluster, env, b, ct);
      RestartsNone(cb.effects);
      RestartsAppend(s.effects, cb.effects);
      ProvisionCleanIff(p, c, env, b, ct);
      ChecksState(s.pulp, s.cluster, env, b, ct);
    }
  }

  /** The claim step goes through: under the storage-class backend the
      claim is created and already matches its expected spec. */
  predicate ClaimClean(p: Pulp, c: Cluster, env: Env, b: Builders, ct: string) {
    var pvc := b.claim(p);
    StorageClassProvided(env.helpers, p) ==>
      && !Stops(env.create(c, FileStorageDefinition(p, ct), pvc))
      && env.deepDerivative(pvc.pvcSpec, Read(env, c, PersistentVolumeClaimKind, p.name + "-file-storage").pvcSpec)
  }

  /** The checks go through for the descriptor p1 they are handed: the
      AdminPasswordSecret field is written and the deployment, the service
      and the server secret match, the last two as built from p2, the
      descriptor with DBFieldsEncryptionSecret defaulted. */
  predicate ChecksClean(p1: Pulp, c: Cluster, env: Env, b: Builders, ct: string) {
    var p2 := WithDbFields(p1);
    && env.updateCRField(p1, "AdminPasswordSecret", p1.name + "-admin-password").None?
    && !Stops(env.reconcile(b.deployment(p1), Read(env, c, DeploymentKind, p1.name + "-api"), ct))
    && !Stops(env.reconcile(b.service(p2), Read(env, c, ServiceKind, p1.name + "-api-svc"), ct))
    && !Stops(env.reconcile(b.serverSecret(p2), Read(env, c, SecretKind, p1.name + "-server"), ct))
  }

  /** The descriptor with ContainerTokenSecret defaulted. */
  function WithContainerToken(p: Pulp): Pulp {
    p.(spec := p.spec.(containerTokenSecret :=
       if |p.spec.containerTokenSecret| == 0 then p.name + "-container-auth" else p.spec.containerTokenSecret))
  }

  /** The descriptor with DBFieldsEncryptionSecret defaulted. */
  function WithDbFields(p: Pulp): Pulp {
    p.(spec := p.spec.(dbFieldsEncryptionSecret :=
       if |p.spec.dbFieldsEncryptionSecret| == 0 then p.name + "-db-fields-encryption" else p.spec.dbFieldsEncryptionSecret))
  }

  /** Every step of the pass goes through, each as seen by the descriptor
      the pass has defaulted by then. */
  predicate AllStepsClean(p: Pulp, c: Cluster, env: Env, b: Builders) {
    var ct := ConditionType(p, env);
    var p1 := WithContainerToken(p);
    && ClaimClean(p, c, env, b, ct)
    && (forall i :: 0 <= i < 6 ==> !Stops(CreateOutcome(env, c, ApiResources(p1, b, ct)[i])))
    && ChecksClean(p1, c, env, b, ct)
  }

  lemma ClaimCleanIff(p: Pulp, c: Cluster, env: Env, b: Builders, ct: string)
    ensures !FileStoragePhase(p, c, env, b, ct).stopped <==> ClaimClean(p, c, env, b, ct)
  {
  }

  lemma ChecksCleanIff(p1: Pulp, c: Cluster, env: Env, b: Builders, ct: string)
    ensures var r := ChecksPhase(p1, c, env, b, ct);
            && (r.stopped <==> !Clean(r))
            && (!r.stopped <==> ChecksClean(p1, c, env, b, ct))
  {
    var s4 := AdminFieldPhase(p1, c, env);
    if !s4.stopped {
      var d5 := DriftPhase(p1, c, env, ct, DeploymentKind, p1.name + "-api", b.deployment(p1), []);
      if !d5.stopped {
        var s6 := Then(Then(s4, d5), DbFieldsDefault(p1, c));
        assert s6.pulp.name == p1.name && s6.cluster == c;
        var bs := ChecksBeforeSecret(p1, c, env, b, ct);
        assert bs == Then(s6, DriftPhase(s6.pulp, c, env, ct, ServiceKind, p1.name + "-api-svc", b.service(s6.pulp), []));
      }
    }
  }

  lemma ProvisionCleanIff(p: Pulp, c: Cluster, env: Env, b: Builders, ct: string)
    ensures var s := ProvisionPhase(p, c, env, b, ct);
            && (s.stopped <==> !Clean(s))
            && (!s.stopped <==> ClaimClean(p, c, env, b, ct)
                                && forall i :: 0 <= i < 6 ==> !Stops(CreateOutcome(env, c, ApiResources(WithContainerToken(p), b, ct)[i])))
            && (!s.stopped ==> s.pulp == WithContainerToken(p) && s.cluster == c)
  {
    var s1 := FileStoragePhase(p, c, env, b, ct);
    ClaimCleanIff(p, c, env, b, ct);
    if !s1.stopped {
      var d := ContainerTokenDefault(p, c);
      assert d.pulp == WithContainerToken(p);
    }
  }

  /** The pass returns an empty result and no error exactly when every step
      goes through; then it leaves the cluster as it found it. */
  lemma CleanPassIff(p: Pulp, c: Cluster, env: Env, b: Builders)
    ensures Clean(Pass(p, c, env, b)) <==> AllStepsClean(p, c, env, b)
    ensures Clean(Pass(p, c, env, b)) ==> Pass(p, c, env, b).cluster == c
  {
    var ct := ConditionType(p, env);
    var s := ProvisionPhase(p, c, env, b, ct);
    ProvisionCleanIff(p, c, env, b, ct);
    if !s.stopped {
      ChecksCleanIff(s.pulp, c, env, b, ct);
      ChecksState(s.pulp, c, env, b, ct);
    }
  }

  /** When provisioning and the AdminPasswordSecret write go through and the
      api deployment's check fails or asks for a requeue, the pass ends
      there and returns that check's requeue and error. */
  lemma DeploymentCheckOutcome(p: Pulp, c: Cluster, env: Env, b: Builders)
    ensures var ct := ConditionType(p, env);
            var p1 := WithContainerToken(p);
            var found := Read(env, c, DeploymentKind, p.name + "-api");
            var out := env.reconcile(b.deployment(p1), found, ct);
            var o := Pass(p, c, env, b);
            !ProvisionPhase(p, c, env, b, ct).stopped
            && env.updateCRField(p1, "AdminPasswordSecret", p.name + "-admin-password").None?
            && Stops(out)
            ==> && o.result == ReconcileResult(out.requeue, 0) && o.err == out.err
                && o.effects[|o.effects| - 1] == DriftChecked(b.deployment(p1), found)
  {
    var ct := ConditionType(p, env);
    ProvisionCleanIff(p, c, env, b, ct);
  }

  /** When every step before it goes through and the api service's check
      fails or asks for a requeue, the pass ends there and returns that
      check's requeue and error; the service is built from the descriptor
      with DBFieldsEncryptionSecret defaulted. */
  lemma ServiceCheckOutcome(p: Pulp, c: Cluster, env: Env, b: Builders)
    ensures var ct := ConditionType(p, env);
            var p1 := WithContainerToken(p);
            var found := Read(env, c, ServiceKind, p.name + "-api-svc");
            var out := env.reconcile(b.service(WithDbFields(p1)), found, ct);
            var o := Pass(p, c, env, b);
            !ProvisionPhase(p, c, env, b, ct).stopped
            && env.updateCRField(p1, "AdminPasswordSecret", p.name + "-admin-password").None?
            && !Stops(env.reconcile(b.deployment(p1), Read(env, c, DeploymentKind, p.name + "-api"), ct))
            && Stops(out)
            ==> && o.result == ReconcileResult(out.requeue, 0) && o.err == out.err
                && o.effects[|o.effects| - 1] == DriftChecked(b.service(WithDbFields(p1)), found)
  {
    var ct := ConditionType(p, env);
    ProvisionCleanIff(p, c, env, b, ct);
    var p1 := WithContainerToken(p);
    var s4 := AdminFieldPhase(p1, c, env);
    var d5 := DriftPhase(p1, c, env, ct, DeploymentKind, p1.name + "-api", b.deployment(p1), []);
    var s6 := Then(Then(s4, d5), DbFieldsDefault(p1, c));
    assert s6.pulp == WithDbFields(p1) && s6.cluster == c;
  }

  // ------------------------------------------------------------ reconciler

  /** A drift check's stop effects only extend its trace. */
  lemma DriftOnStop(p: Pulp, c: Cluster, env: Env, ct: string, kind: Kind, name: string, expected: Obj,
                    onStop: seq<Effect>)
    ensures var r := DriftPhase(p, c, env, ct, kind, name, expected, []);
            DriftPhase(p, c, env, ct, kind, name, expected, onStop)
            == r.(effects := r.effects + (if r.stopped then onStop else []))
  {
  }

  lemma AppendAssoc(a: seq<Effect>, b: seq<Effect>, c: seq<Effect>)
    ensures a + b + c == a + (b + c)
  {
  }

  /** The reconciler's view of one pass: the descriptor it was handed, the
      objects of the descriptor's namespace and the effects observed so far. */
  class Reconciler {
    var pulp: Pulp
    var cluster: Cluster
    var trace: seq<Effect>

    constructor (pulp: Pulp, cluster: Cluster)
      ensures this.pulp == pulp && this.cluster == cluster && trace == []
    {
      this.pulp := pulp;
      this.cluster := cluster;
      trace := [];
    }

    /** Records a side effect that changes neither the descriptor nor the
        cluster (a status write, an event, a restart). */
    method Record(e: Effect)
      modifies this
      ensures trace == old(trace) + [e] && pulp == old(pulp) && cluster == old(cluster)
    {
      trace := trace + [e];
    }

    /** createPulpResource */
    method CreatePulpResource(env: Env, def: ResourceDefinition, built: Obj) returns (requeue: bool, err: Option<Error>)
      modifies this
      ensures StepOutcome(requeue, err) == env.create(old(cluster), def, built)
      ensures trace == old(trace) + [CreateAttempted(def)] && pulp == old(pulp) && cluster == old(cluster)
    {
      Record(CreateAttempted(def));
      var o := env.create(cluster, def, built);
      requeue, err := o.requeue, o.err;
    }

    /** reconcileObject on the object of that kind and name. */
    method ReconcileObject(env: Env, expected: Obj, kind: Kind, name: string, ct: string)
      returns (stop: bool, result: ReconcileResult, err: Option<Error>)
      modifies this
      ensures var r := DriftPhase(old(pulp), old(cluster), env, ct, kind, name, expected, []);
              && stop == r.stopped && result == r.result && err == r.err
              && pulp == r.pulp && cluster == r.cluster && trace == old(trace) + r.effects
    {
      var found := Read(env, cluster, kind, name);
      Record(DriftChecked(expected, found));
      var o := env.reconcile(expected, found, ct);
      if o.err.Some? || o.requeue {
        return true, ReconcileResult(o.requeue, 0), o.err;
      }
      return false, Done, None;
    }

    /** r.Update: a successful update stores the object under its name. */
    method Update(env: Env, obj: Obj) returns (err: Option<Error>)
      modifies this
      ensures err == env.update(old(cluster), obj)
      ensures trace == old(trace) + [UpdateAttempted(obj)] && pulp == old(pulp)
      ensures cluster == if err.None? then old(cluster)[ObjKey(KindOf(obj), obj.meta.name) := obj] else old(cluster)
    {
      Record(UpdateAttempted(obj));
      err := env.update(cluster, obj);
      if err.None? {
        cluster := cluster[ObjKey(KindOf(obj), obj.meta.name) := obj];
      }
    }

    /** The file-storage claim step (the storage-class backend only). */
    method ReconcileFileStorage(env: Env, b: Builders, ct: string) returns (stop: bool, result: ReconcileResult, err: Option<Error>)
      modifies this
      ensures var r := FileStoragePhase(old(pulp), old(cluster), env, b, ct);
              && stop == r.stopped && result == r.result && err == r.err
              && pulp == r.pulp && cluster == r.cluster && trace == old(trace) + r.effects
    {
      if !StorageClassProvided(env.helpers, pulp) {
        return false, Done, None;
      }
      var name := pulp.name + "-file-storage";
      var requeue, e := CreatePulpResource(env, FileStorageDefinition(pulp, ct), b.claim(pulp));
      if e.Some? {
        return true, Done, e;
      } else if requeue {
        return true, ReconcileResult(true, 0), None;
      }
      var pvcFound := Read(env, cluster, PersistentVolumeClaimKind, name);
      var expectedPvc := b.claim(pulp);
      if !env.deepDerivative(expectedPvc.pvcSpec, pvcFound.pvcSpec) {
        Record(StatusUpdated(false, ct, "UpdatingFileStoragePVC", "Reconciling " + name + " PVC resource"));
        Record(EventEmitted(Normal, "Updating", "Reconciling file storage PVC"));
        e := Update(env, expectedPvc);
        if e.Some? {
          Record(StatusUpdated(false, ct, "ErrorUpdatingFileStoragePVC", "Failed to reconcile " + name + " PVC resource"));
          Record(EventEmitted(Warning, "Failed", "Failed to reconcile file storage PVC"));
          return true, Done, e;
        }
        Record(EventEmitted(Normal, "Updated", "File storage PVC reconciled"));
        return true, ReconcileResult(true, 1), None;
      }
      return false, Done, None;
    }

    /** Sets ContainerTokenSecret to its default when empty and patches the
        descriptor; the patch's error is discarded. */
    method DefaultContainerToken()
      modifies this
      ensures var r := ContainerTokenDefault(old(pulp), old(cluster));
              pulp == r.pulp && cluster == r.cluster && trace == old(trace) + r.effects
    {
      if |pulp.spec.containerTokenSecret| == 0 {
        var v := pulp.name + "-container-auth";
        pulp := pulp.(spec := pulp.spec.(containerTokenSecret := v));
        Record(Patched("ContainerTokenSecret", v));
      }
    }

    /** Sets DBFieldsEncryptionSecret to its default when empty and patches
        the descriptor; the patch's error is discarded. */
    method DefaultDbFields()
      modifies this
      ensures var r := DbFieldsDefault(old(pulp), old(cluster));
              pulp == r.pulp && cluster == r.cluster && trace == old(trace) + r.effects
    {
      if |pulp.spec.dbFieldsEncryptionSecret| == 0 {
        var v := pulp.name + "-db-fields-encryption";
        pulp := pulp.(spec := pulp.spec.(dbFieldsEncryptionSecret := v));
        Record(Patched("DBFieldsEncryptionSecret", v));
      }
    }

    /** The loop over the six api resources, returning at the first one
        whose creation fails or asks for a requeue. */
    method CreateResources(env: Env, b: Builders, ct: string) returns (stop: bool, result: ReconcileResult, err: Option<Error>)
      modifies this
      ensures var r := CreatePhase(old(pulp), old(cluster), env, b, ct);
              && stop == r.stopped && result == r.result && err == r.err
              && pulp == r.pulp && cluster == r.cluster && trace == old(trace) + r.effects
    {
      var resources := ApiResources(pulp, b, ct);
      for i := 0 to |resources|
        invariant pulp == old(pulp) && cluster == old(cluster)
        invariant forall j :: 0 <= j < i ==> !Stops(CreateOutcome(env, cluster, resources[j]))
        invariant trace == old(trace) + Attempted(resources, i)
      {
        var requeue, e := CreatePulpResource(env, resources[i].definition, resources[i].built);
        assert Attempted(resources, i + 1) == Attempted(resources, i) + [CreateAttempted(resources[i].definition)];
        if e.Some? {
          return true, Done, e;
        } else if requeue {
          return true, ReconcileResult(true, 0), None;
        }
      }
      return false, Done, None;
    }

    /** The provisioning half of pulpApiController. */
    method Provision(env: Env, b: Builders, ct: string) returns (stop: bool, result: ReconcileResult, err: Option<Error>)
      modifies this
      ensures var r := ProvisionPhase(old(pulp), old(cluster), env, b, ct);
              && stop == r.stopped && result == r.result && err == r.err
              && pulp == r.pulp && cluster == r.cluster && trace == old(trace) + r.effects
    {
      ghost var p, c, t := pulp, cluster, trace;
      stop, result, err := ReconcileFileStorage(env, b, ct);
      ghost var s1 := FileStoragePhase(p, c, env, b, ct);
      if stop {
        return;
      }
      DefaultContainerToken();
      ghost var s2 := Then(s1, ContainerTokenDefault(s1.pulp, s1.cluster));
      AppendAssoc(t, s1.effects, ContainerTokenDefault(s1.pulp, s1.cluster).effects);
      stop, result, err := CreateResources(env, b, ct);
      AppendAssoc(t, s2.effects, CreatePhase(s2.pulp, s2.cluster, env, b, ct).effects);
    }

    /** The checking half of pulpApiController. */
    method CheckObjects(env: Env, b: Builders, ct: string) returns (stop: bool, result: ReconcileResult, err: Option<Error>)
      modifies this
      ensures var r := ChecksPhase(old(pulp), old(cluster), env, b, ct);
              && stop == r.stopped && result == r.result && err == r.err
              && pulp == r.pulp && cluster == r.cluster && trace == old(trace) + r.effects
    {
      ghost var p, c, t := pulp, cluster, trace;
      var v := pulp.name + "-admin-password";
      err := env.updateCRField(pulp, "AdminPasswordSecret", v);
      Record(CRFieldUpdateAttempted("AdminPasswordSecret", v));
      ghost var s4 := AdminFieldPhase(p, c, env);
      if err.Some? {
        return true, Done, err;
      }

      var apiDeployment := Read(env, cluster, DeploymentKind, pulp.name + "-api");
      stop, result, err := ReconcileObject(env, b.deployment(pulp), DeploymentKind, pulp.name + "-api", ct);
      ghost var s5 := Then(s4, DriftPhase(p, c, env, ct, DeploymentKind, p.name + "-api", b.deployment(p), []));
      AppendAssoc(t, s4.effects, DriftPhase(p, c, env, ct, DeploymentKind, p.name + "-api", b.deployment(p), []).effects);
      if stop {
        return;
      }

      DefaultDbFields();
      ghost var s6 := Then(s5, DbFieldsDefault(s5.pulp, s5.cluster));
      AppendAssoc(t, s5.effects, DbFieldsDefault(s5.pulp, s5.cluster).effects);

      stop, result, err := ReconcileObject(env, b.service(pulp), ServiceKind, pulp.name + "-api-svc", ct);
      ghost var s7 := Then(s6, DriftPhase(s6.pulp, s6.cluster, env, ct, ServiceKind, p.name + "-api-svc", b.service(s6.pulp), []));
      AppendAssoc(t, s6.effects, DriftPhase(s6.pulp, s6.cluster, env, ct, ServiceKind, p.name + "-api-svc", b.service(s6.pulp), []).effects);
      assert ChecksBeforeSecret(p, c, env, b, ct) == s7;
      if stop {
        return;
      }

      var expectedSecret := b.serverSecret(pulp);
      stop, result, err := ReconcileObject(env, expectedSecret, SecretKind, pulp.name + "-server", ct);
      assert s7.pulp == pulp && s7.cluster == c && pulp.name == p.name;
      ghost var checked := DriftPhase(s7.pulp, s7.cluster, env, ct, SecretKind, s7.pulp.name + "-server", expectedSecret, []);
      DriftOnStop(s7.pulp, s7.cluster, env, ct, SecretKind, s7.pulp.name + "-server", expectedSecret, Restart(s7.pulp, s7.cluster, env));
      if stop {
        Record(PodsRestarted(apiDeployment));
        var contentDeployment := Read(env, cluster, DeploymentKind, pulp.name + "-content");
        Record(PodsRestarted(contentDeployment));
        AppendAssoc(t + s7.effects, checked.effects, Restart(p, c, env));
        AppendAssoc(t, s7.effects, checked.effects + Restart(p, c, env));
        return;
      }
      AppendAssoc(t, s7.effects, checked.effects);
    }

    /** pulpApiController */
    method PulpApiController(env: Env) returns (result: ReconcileResult, err: Option<Error>)
      modifies this
      ensures var o := ApiPass(old(pulp), old(cluster), env);
              && result == o.result && err == o.err
              && pulp == o.pulp && cluster == o.cluster && trace == old(trace) + o.effects
    {
      ghost var p, c, t := pulp, cluster, trace;
      var ct := ConditionType(pulp, env);
      var b := SourceBuilders(env);
      var stop;
      stop, result, err := Provision(env, b, ct);
      if stop {
        return;
      }
      ghost var s := ProvisionPhase(p, c, env, b, ct);
      stop, result, err := CheckObjects(env, b, ct);
      AppendAssoc(t, s.effects, ChecksPhase(s.pulp, s.cluster, env, b, ct).effects);
    }
  }
}

=== FILE: decimal.dfy ===
/** Decimal rendering of integers, as strconv.Itoa does it, and a parser
    that serves as its independent partner. */
module Decimal {

  predicate IsDigit(c: char) {
    '0' <= c <= '9'
  }

  predicate AllDigits(s: string) {
    forall i :: 0 <= i < |s| ==> IsDigit(s[i])
  }

  function DigitChar(d: nat): (c: char)
    requires d < 10
    ensures IsDigit(c) && c as int - '0' as int == d
  {
    ('0' as int + d) as char
  }

  /** The shortest decimal numeral of n (no leading zeros, "0" for zero). */
  function NatToDecimal(n: nat): (s: string)
    ensures |s| >= 1 && AllDigits(s)
    ensures s[0] == '0' ==> n == 0
    decreases n
  {
    if n < 10 then [DigitChar(n)] else NatToDecimal(n / 10) + [DigitChar(n % 10)]
  }

  /** strconv.Itoa: a minus sign for negative values, then the digits. */
  function IntToDecimal(i: int): (s: string)
    ensures |s| >= 1
    ensures s[0] == '-' <==> i < 0
    ensures AllDigits(if i < 0 then s[1..] else s)
  {
    if i < 0 then "-" + NatToDecimal(-i) else NatToDecimal(i)
  }

  /** The value a string of digits denotes. */
  function DigitsValue(s: string): nat
    requires AllDigits(s)
  {
    if s == [] then 0 else DigitsValue(s[..|s| - 1]) * 10 + (s[|s| - 1] as int - '0' as int)
  }

  /** The value of an optionally signed decimal numeral. */
  function ParseDecimal(s: string): int
    requires |s| >= 1 && AllDigits(if s[0] == '-' then s[1..] else s)
  {
    if s[0] == '-' then -(DigitsValue(s[1..]) as int) else DigitsValue(s)
  }

  lemma {:induction false} NatToDecimalRoundTrip(n: nat)
    ensures DigitsValue(NatToDecimal(n)) == n
    decreases n
  {
    if n >= 10 {
      var prefix := NatToDecimal(n / 10);
      var s := prefix + [DigitChar(n % 10)];
      assert s[..|s| - 1] == prefix;
      NatToDecimalRoundTrip(n / 10);
    }
  }

  /** Parsing what Itoa renders gives the integer back. */
  lemma IntToDecimalRoundTrip(i: int)
    ensures ParseDecimal(IntToDecimal(i)) == i
  {
    if i < 0 {
      assert IntToDecimal(i)[1..] == NatToDecimal(-i);
      NatToDecimalRoundTrip(-i);
    } else {
      NatToDecimalRoundTrip(i);
    }
  }

  /** Itoa is injective: distinct ports never render to the same text. */
  lemma IntToDecimalInjective(i: int, j: int)
    requires IntToDecimal(i) == IntToDecimal(j)
    ensures i == j
  {
    IntToDecimalRoundTrip(i);
    IntToDecimalRoundTrip(j);
  }
}

=== FILE: kube.dfy ===
/** The cluster objects, the Pulp descriptor and the side effects that the
    api reconciliation pass works with. Only the fields the pass and its
    builders read or write are kept. */
module Kube {

  datatype Option<+T> = None | Some(value: T)

  /** An error returned by a cluster call or a collaborator; its text is opaque. */
  datatype Error = Error(message: string)

  /** ctrl.Result: requeue the pass, and after how many seconds (0 = no delay). */
  datatype ReconcileResult = ReconcileResult(requeue: bool, requeueAfterSeconds: nat)

  /** ctrl.Result{} */
  const Done := ReconcileResult(false, 0)

  /** The (requeue, err) pair returned by createPulpResource and reconcileObject. */
  datatype StepOutcome = StepOutcome(requeue: bool, err: Option<Error>)

  /** A step that asks the pass to stop: it failed or it wants a requeue. */
  predicate Stops(o: StepOutcome) {
    o.requeue || o.err.Some?
  }

  // ---------------------------------------------------------------- descriptor

  datatype CacheSpec = CacheSpec(enabled: bool, externalCacheSecret: string, redisPort: int)

  datatype DatabaseSpec = DatabaseSpec(externalDBSecret: string)

  /** The fields of the Pulp custom resource's spec that the api pass uses. */
  datatype PulpSpec = PulpSpec(
    deploymentType: string,
    adminPasswordSecret: string,
    containerTokenSecret: string,
    dbFieldsEncryptionSecret: string,
    database: DatabaseSpec,
    postgresConfigurationSecret: string,
    cache: CacheSpec,
    objectStorageAzureSecret: string,
    objectStorageS3Secret: string,
    ssoSecret: string,
    ingressType: string,
    ingressTLSSecret: string,
    ingressHost: string,
    hostname: string,
    fileStorageSize: string,
    fileStorageAccessMode: string,
    fileStorageClass: string)

  /** The Pulp custom resource: the descriptor the pass reconciles. */
  datatype Pulp = Pulp(name: string, namespace: string, spec: PulpSpec)

  // ----------------------------------------------------------- cluster objects

  type Labels = map<string, string>

  /** Object metadata; `controller` is the name of the Pulp set as controller
      owner by ctrl.SetControllerReference, if any. */
  datatype ObjectMeta = ObjectMeta(name: string, namespace: string, labels: Labels, controller: Option<string>)

  const EmptyMeta := ObjectMeta("", "", map[], None)

  datatype PvcSpec = PvcSpec(storageRequest: string, accessModes: seq<string>, storageClassName: string)

  const EmptyPvcSpec := PvcSpec("", [], "")

  datatype ServicePort = ServicePort(name: string, port: int, protocol: string, targetPort: int)

  datatype ServiceSpec = ServiceSpec(
    internalTrafficPolicy: string,
    ipFamilies: seq<string>,
    ipFamilyPolicy: string,
    ports: seq<ServicePort>,
    selector: Labels,
    sessionAffinity: string,
    serviceType: string,
    publishNotReadyAddresses: bool)

  const EmptyServiceSpec := ServiceSpec("", [], "", [], map[], "", "", false)

  datatype Kind = PersistentVolumeClaimKind | SecretKind | DeploymentKind | ServiceKind

  /** A cluster object. A deployment's pod template is built by code outside
      this model and is kept as an opaque text. */
  datatype Obj =
    | PersistentVolumeClaim(meta: ObjectMeta, pvcSpec: PvcSpec)
    | Secret(meta: ObjectMeta, stringData: map<string, string>)
    | Deployment(meta: ObjectMeta, template: string)
    | Service(meta: ObjectMeta, svcSpec: ServiceSpec)

  function KindOf(o: Obj): Kind {
    match o
    case PersistentVolumeClaim(_, _) => PersistentVolumeClaimKind
    case Secret(_, _) => SecretKind
    case Deployment(_, _) => DeploymentKind
    case Service(_, _) => ServiceKind
  }

  /** The zero-valued object of a kind (`&corev1.Secret{}` and the like). */
  function Zero(kind: Kind): (o: Obj)
    ensures KindOf(o) == kind && o.meta == EmptyMeta
  {
    match kind
    case PersistentVolumeClaimKind => PersistentVolumeClaim(EmptyMeta, EmptyPvcSpec)
    case SecretKind => Secret(EmptyMeta, map[])
    case DeploymentKind => Deployment(EmptyMeta, "")
    case ServiceKind => Service(EmptyMeta, EmptyServiceSpec)
  }

  datatype ObjKey = ObjKey(kind: Kind, name: string)

  /** The objects of the descriptor's namespace, by kind and name. */
  type Cluster = map<ObjKey, Obj>

  /** What a read of that kind and name that reaches the cluster finds: the
      object when the cluster holds one of that kind under that name,
      otherwise (a not-found read) the zero object the caller allocated. */
  function Get(cluster: Cluster, kind: Kind, name: string): (o: Obj)
    ensures KindOf(o) == kind
    ensures ObjKey(kind, name) !in cluster ==> o == Zero(kind)
    ensures ObjKey(kind, name) in cluster && KindOf(cluster[ObjKey(kind, name)]) == kind ==>
              o == cluster[ObjKey(kind, name)]
  {
    var key := ObjKey(kind, name);
    if key in cluster && KindOf(cluster[key]) == kind then cluster[key] else Zero(kind)
  }

  // ------------------------------------------------------------------- effects

  /** A resource the pass provisions: kind, name, alias (used in condition
      and event texts) and the condition type it reports under. */
  datatype ResourceDefinition = ResourceDefinition(kind: Kind, name: string, alias: string, conditionType: string)

  datatype EventType = Normal | Warning

  /** One observable side effect of the pass, in the order it happens. */
  datatype Effect =
    | CreateAttempted(definition: ResourceDefinition)
    | StatusUpdated(status: bool, conditionType: string, reason: string, message: string)
    | EventEmitted(eventType: EventType, reason: string, message: string)
    | UpdateAttempted(obj: Obj)
    | Patched(field: string, value: string)
    | CRFieldUpdateAttempted(field: string, value: string)
    | DriftChecked(expected: Obj, found: Obj)
    | PodsRestarted(deployment: Obj)
}
